=== FILE: README.md ===
# Fireboy & Watergirl: a verified model of the simulation core

This project models the simulation core of a small two-player tile platformer.
Fireboy and Watergirl move through a generated tile grid under gravity. They
are pushed out of the tiles that are solid for them and respawn when they touch
the other element's pool. The game is won once each has reached its own exit
since it last respawned.

The model is split into these modules, beside a small `Options` datatype:

- `Geometry`: vectors and rectangles, with floats as exact reals. It holds the
  rectangle overlap test and the C++ rounding rules: `static_cast<int>`
  truncates, and integer division rounds toward zero.
- `Tiles`: the six tile types, their names, and the tile value the grid stores.
- `Grids`: the map as a value (a row-major grid of `height` rows of `width`
  tiles, each tile knowing its own column and row) and the map's pure queries:
  grid and world lookup, world bounds and the respawn points.
- `Generation`: level generation as a function of width, height and a sequence
  of draws. It covers the ascending platform walk, then the fixed hazard, exit
  and Solid writes. The lemmas here give the layout of every generated level.
- `Maps`: the `Map` object. Allocation, copying, assignment and generation are
  methods that rewrite its grid in place. Allocation and generation are proved
  to give the grids `Grids.Uniform` and `Generation.Generate` describe; copying
  and assignment leave this map's state equal to the copied map's.
- `Kinematics`: a character's state and every operation on it as functions,
  including the sub-stepped integrator of `Character::update`.
- `Characters`: the `Character` object, whose methods (the update loop among
  them) are proved to move its state exactly as `Kinematics` says.
- `Collisions`: `Game::handleCollisions` as functions. It covers the scanned
  span, what a visited cell does, and the row-major scan that stops at the
  first hazard. Lemmas characterise when a character is respawned. They also
  say when its exit flag is set: in general, only from a set flag or an own
  exit in the span; in a pass that pushes nothing, exactly when no lethal
  cell lies in the span and the flag was set or its own exit overlaps the
  box.
- `Simulation` and `Games`: one frame of the game (input, physics, collisions,
  win latch) as a function on a game-state record, plus a session as a
  sequence of frames. The `Game` object's methods are proved against these.

The random source of generation is a sequence `draws` of values in 1..3.
Round i of the walk uses `draws[2i]` as the platform length and `draws[2i+1]`
as the gap. Generation is then a function of width, height and draws, so
equal draws give equal grids. The game's fixed seed 12345 corresponds to one
such sequence.

The keyboard becomes an `Intents` record of six held keys per frame. The clock
becomes the `dt` of each `Tick`.

Points where the code's behaviour is easy to misread:

- **The exit flag is sticky.** An ordinary frame never resets it. Only a
  lethal contact clears it (`Collisions.ScanFrom`, `Simulation.Update`).
- **World-to-grid lookup truncates toward zero.** It does not floor. A point
  up to one tile left of the world reads column 0, not the out-of-range Solid
  (`Grids.TypeAtWorldTruncates`).
- **The collision scan covers the span of the box, not only overlapping
  cells.** The hazard test has no overlap check, so a pool directly under
  the feet of a standing character kills it (`Collisions.StandingCellIsScanned`,
  `Collisions.CollideOutcome`).
- **The horizontal clamp applies the left wall first and then the right
  wall.** So `x + 48 <= right` always holds after an update with dt > 0, while
  `left <= x` holds only in a world at least one tile wide
  (`Kinematics.Integrate`).
- **Generation indexes fixed cells that exist only when width and height are
  at least 3.** The model demands that (`Generation.FixedWritesFitExactly`).

Two consequences of the code:

- The first platform tile is always laid at (1, h-2), the cell whose corner is
  Fireboy's spawn and respawn point. So, for h > 3, Fireboy always starts
  inside a Solid tile (`Generation.FireRespawnCellIsSolid`).
- A push out of a tile sets `onGround` whether the character lands on top of
  the tile or is pushed below it (`Collisions.Land`).

## Model

| member | source | states |
|---|---|---|
| Geometry.Intersects | Game.cpp:5-7 | for rectangles of positive size, overlap holds exactly when the four strict edge inequalities hold, so edge-sharing rectangles do not overlap |
| Geometry.Trunc | Map.cpp:88-89 | the float-to-int cast keeps the integer part: n <= x < n+1 for x >= 0 and n-1 < x <= n for x < 0 |
| Geometry.DivToZero | Game.cpp:29 | C++ integer division by a positive divisor: the quotient times the divisor lies within one divisor of the dividend, on the dividend's side of zero |
| Geometry.TruncThenDivide | Game.cpp:26-29 | truncating the box's bottom edge and then dividing by 48 gives the same row as truncating the quotient, as the other three span bounds do |
| Geometry.TruncVersusFloor | Map.cpp:88-89 | truncation equals flooring for x >= 0; on (-1, 0) truncation gives 0 where flooring gives -1 |
| Tiles.ToString | Tile.cpp:4-14 | each of the six types maps to its enumerator name, and reading the name back gives the type |
| Tiles.ToStringInjective | Tile.cpp:4-14 | distinct tile types have distinct names |
| Tiles.Drawn | Tile.cpp:45-49 | a tile is drawn exactly when its type is not Empty |
| Tiles.Write | Tile.cpp:51-54 | streaming a tile writes exactly the name of its type |
| Grids.Uniform | Map.cpp:5-11 | a well-formed h by w grid whose cell (c, r) is Tile(t, c, r) |
| Grids.Put | Map.cpp:70 | one cell replaced by a tile that knows its own position; the shape and every other cell unchanged |
| Grids.TypeAtGrid | Map.cpp:82-85 | Solid for any column or row outside the grid, the stored type inside it |
| Grids.TypeAtWorld | Map.cpp:87-91 | the world lookup reads the grid cell at the coordinates over 48, truncated toward zero; its agreement with floor lookup, and where the two differ, is stated by Grids.TypeAtWorldTruncates |
| Grids.TypeAtWorldTruncates | Map.cpp:87-91 | world lookup agrees with floor lookup on non-negative coordinates; a point in (-48, 0) reads column 0, where floor lookup reads Solid |
| Grids.WorldBounds | Map.cpp:110-112 | the world rectangle is (0, 0, 48 * width, 48 * height) |
| Grids.WorldBoundsCoverGrid | Map.cpp:110-112 | a non-negative point is inside the world rectangle exactly when its grid index is inside the grid |
| Grids.RespawnWorldPosForFire | Map.cpp:114-116 | Fireboy respawns at (48, 48 * (height - 2)) |
| Grids.RespawnWorldPosForWater | Map.cpp:118-120 | Watergirl respawns at (240, 48 * (height - 2)) |
| Grids.RespawnCells | Map.cpp:114-120 | the respawn points look up cells (1, height-2) and (5, height-2) |
| Generation.Lay | Map.cpp:61-64 | laying a platform keeps the grid well-formed, never moves the cursor back, and advances it when a tile is laid |
| Generation.Walk | Map.cpp:57-68 | the platform walk keeps the grid well-formed; it terminates because the column cursor advances every round |
| Generation.WalkStep | Map.cpp:57-68 | one round of the walk is a platform, a gap, and one row up while above row 1 |
| Generation.LayKeepsStaircase | Map.cpp:61-64 | a platform keeps the walk's staircase and every Solid tile already laid, and lays its first tile at the cursor |
| Generation.WalkKeepsStaircase | Map.cpp:57-68 | the walk leaves only Empty and Solid cells, Solid only in columns 1..w-2 and rows 1..h-2, at most one per column and never lower further right |
| Generation.FixedWritesFitExactly | Map.cpp:70-79 | every fixed write indexes a cell of the grid exactly when w >= 3 and h >= 3 |
| Generation.Place | Map.cpp:70-79 | the fixed writes keep the grid well-formed |
| Generation.PlaceOverwrites | Map.cpp:70-79 | each cell ends with the type of the last fixed write to it, or keeps the walk's tile |
| Generation.Generate | Map.cpp:48-80 | a generated level is a well-formed w by h grid |
| Generation.GenerateLayout | Map.cpp:48-80 | fixed cells hold their last write; every other cell is Empty or a Solid step of an ascending staircase inside the border |
| Generation.GenerateOverwrites | Map.cpp:70-79 | (1,1) always ends as ExitWater; when h = 7 the Fire cell (2,5) is overwritten by Solid |
| Generation.FireRespawnCellIsSolid | Map.cpp:57-68 | for h > 3 the cell at Fireboy's respawn point, (1, h-2), is always Solid |
| Maps.Map.constructor | Map.cpp:13-15 | a new map (12 by 8 of Empty by default) has the given size and every cell (c, r) is Tile(defaultType, c, r) |
| Maps.Map.AllocateGrid | Map.cpp:5-11 | after allocation the size is w by h and every cell (c, r) is Tile(defaultType, c, r) |
| Maps.Map.Copy | Map.cpp:17-27 | the copy has the same size and the same tiles as the original |
| Maps.Map.Assign | Map.cpp:29-42 | after assignment the map equals the assigned map, self-assignment included |
| Maps.Map.GenerateAscendingPlatforms | Map.cpp:48-80 | generation keeps the size and leaves exactly the grid Generate describes |
| Maps.Map.ClearToEmpty | Map.cpp:49-51 | every cell becomes an Empty tile at its own position |
| Maps.Map.LayPlatform | Map.cpp:61-64 | the inner loop lays exactly the platform Lay describes and returns the cursor after it |
| Maps.Map.WalkPlatforms | Map.cpp:57-68 | the while loop leaves exactly the grid Walk describes |
| Kinematics.Spawned | Character.cpp:10-14 | a new character is at its position with the given lives, zero velocity, not on the ground |
| Kinematics.Box | Character.cpp:72-75 | the collision box is the 48 by 48 square at the position |
| Kinematics.SetOnGround | Character.cpp:32-37 | setting the flag true zeroes vertical velocity; setting it false leaves velocity alone; nothing else changes |
| Kinematics.SetPosition | Character.cpp:77-81 | only the position changes |
| Kinematics.StopVerticalMovement | Character.cpp:146 | only vertical velocity changes, to zero |
| Kinematics.MoveLeft | Character.cpp:111-114 | only x changes, by -160 * dt |
| Kinematics.MoveRight | Character.cpp:116-119 | only x changes, by +160 * dt |
| Kinematics.MovesUndoEachOther | Character.cpp:111-119 | a move right undoes a move left of the same dt, and the other way round |
| Kinematics.Jump | Character.cpp:121-126 | from the ground: vertical velocity -360 and airborne; in the air: no change |
| Kinematics.TakeDamageAndRespawn | Character.cpp:128-133 | one life lost only if any are left, so lives never go negative or up; at the respawn point, zero velocity, airborne |
| Kinematics.Advance | Character.cpp:88-89 | gravity 900 * step only when airborne, then the position moves by the new velocity times step |
| Kinematics.SubStep | Character.cpp:87-101 | grounded exactly when the moved box passed the floor, then standing on it with zero vertical velocity; bottom and right edges within the world; left edge too when the world is at least 48 wide |
| Kinematics.Integrate | Character.cpp:83-109 | lives and horizontal velocity unchanged; no change for dt <= 0; for dt > 0 the box ends above the floor and within the walls as SubStep says, and a grounded result stands on the floor at rest; the result is the last sub-step's (Kinematics.LastSubStep), grounded exactly when that sub-step passed the floor (Kinematics.IntegrateGrounding) |
| Kinematics.LastSubStep | Character.cpp:84-104 | a positive update ends with a sub-step of at most 0.02 s, and its result is exactly that sub-step's |
| Kinematics.IntegrateGrounding | Character.cpp:91-97 | after a positive update the character is grounded exactly when the last sub-step's advanced box passed the floor; otherwise it keeps that sub-step's vertical position and velocity |
| Kinematics.IntegrateSplits | Character.cpp:84-104 | integrating n whole sub-steps and then the rest equals integrating the total at once |
| Kinematics.SubSteppingEquivalence | Character.cpp:84-104 | a 0.05 s frame integrates exactly as frames of 0.02, 0.02 and 0.01 s |
| Characters.Character.Bounds | Character.cpp:72-75 | the bounds are the 48 by 48 box at the current position |
| Characters.Character.Fireboy | Character.h:71-75 | a Fireboy has element Fire and starts as Spawned says |
| Characters.Character.Watergirl | Character.h:77-81 | a Watergirl has element Water and starts as Spawned says |
| Characters.Character.Rock | Character.h:83-87 | a rock has element Neutral and starts as Spawned says |
| Characters.Character.Copy | Character.cpp:39-53 | the copy has the same name, element and state |
| Characters.Character.Assign | Character.cpp:55-70 | name and state are copied, self-assignment included; the element stays that of the assigned-to object |
| Characters.Character.SetOnGround | Character.cpp:32-37 | the state changes exactly as Kinematics.SetOnGround |
| Characters.Character.SetPosition | Character.cpp:77-81 | the state changes exactly as Kinematics.SetPosition |
| Characters.Character.MoveLeft | Character.cpp:111-114 | the state changes exactly as Kinematics.MoveLeft |
| Characters.Character.MoveRight | Character.cpp:116-119 | the state changes exactly as Kinematics.MoveRight |
| Characters.Character.Jump | Character.cpp:121-126 | the state changes exactly as Kinematics.Jump |
| Characters.Character.TakeDamageAndRespawn | Character.cpp:128-133 | the state changes exactly as Kinematics.TakeDamageAndRespawn |
| Characters.Character.StopVerticalMovement | Character.cpp:146 | the state changes exactly as Kinematics.StopVerticalMovement |
| Characters.Character.SubStep | Character.cpp:87-103 | one pass of the update loop changes the state exactly as Kinematics.SubStep |
| Characters.Character.Update | Character.cpp:83-109 | the update loop returns true and leaves exactly the state Kinematics.Integrate gives |
| Collisions.SolidFor | Game.cpp:35-38 | Solid blocks everyone, a Fire pool blocks Fire and a Water pool blocks Water; the consequences are stated by Collisions.TileRules |
| Collisions.LethalFor | Game.cpp:56-63 | a Fire pool is lethal to Water and a Water pool to Fire; the consequences are stated by Collisions.TileRules |
| Collisions.ExitFor | Game.cpp:66-72 | ExitFire is the exit of Fire and ExitWater the exit of Water; the consequences are stated by Collisions.TileRules |
| Collisions.TileRules | Game.cpp:35-38 | a pool is solid for its own element and lethal for the other; no tile is both; a neutral character is blocked only by Solid and is never hurt or at an exit |
| Collisions.TileRect | Game.cpp:41 | cell (c, r) covers the 48 by 48 square at (48c, 48r) |
| Collisions.Land | Game.cpp:40-54 | the push keeps x, grounds the character with zero vertical velocity, puts the box on top of the tile when it started above the tile's top and just below the tile otherwise, and leaves no overlap |
| Collisions.ScanSpan | Game.cpp:26-29 | the scanned columns and rows are clamped to the grid; the bottom row is the truncated bottom edge over 48 |
| Collisions.SpanCoversOverlaps | Game.cpp:26-32 | every grid cell the box overlaps is scanned |
| Collisions.StandingCellIsScanned | Game.cpp:26-32 | the cell directly under a box standing on its top edge is scanned although the two do not overlap |
| Collisions.Visit | Game.cpp:33-73 | a cell respawns the character exactly when it is lethal for its element, clearing the flag; otherwise the flag is set only by the own exit overlapping the (pushed) box, and the character changes only by a push out of an overlapping solid cell |
| Collisions.ScanFrom | Game.cpp:31-74 | a respawned character ends at the respawn point at rest with one life fewer and the flag cleared; otherwise lives, x and horizontal velocity are kept, a set flag stays set, and a moved character is grounded at rest; neutral characters are never respawned |
| Collisions.ScanUnfolds | Game.cpp:31-74 | the scan past the last row ends; past a row's end it continues on the next row; at a cell it visits and stops on a respawn |
| Collisions.ScanFindsHazards | Game.cpp:31-74 | the scan respawns exactly when a lethal cell lies ahead in the span, and sets the flag only if it was set or an own exit lies ahead |
| Collisions.AheadNextRow | Game.cpp:31-32 | after a row's last column, the cells ahead are those from the next row's first column |
| Collisions.AheadNextCell | Game.cpp:31-32 | the cells ahead of a cell are that cell and the cells ahead of the next one |
| Collisions.OverlapAheadSteps | Game.cpp:31-32 | the solid and exit cells ahead that overlap a box step through the span as the loops do: past a row's end to the next row, at a cell to that cell and the rest |
| Collisions.ScanReachesExit | Game.cpp:31-74 | in a scan that meets no overlapping solid cell, the character stays put unless respawned, and ends at its exit exactly when no lethal cell lies ahead and the flag was set or an own exit ahead overlaps the box |
| Collisions.Collide | Game.cpp:22-75 | one collision pass is the scan of the box's span from its top-left cell; its outcome is stated by Collisions.CollideOutcome |
| Collisions.CollideOutcome | Game.cpp:22-75 | one collision pass respawns exactly when a lethal cell lies in the span, with the respawn effects; otherwise it keeps lives and x and the flag, and gains the flag only from an own exit in the span |
| Collisions.CollideReachesExit | Game.cpp:22-75 | a collision pass that pushes nothing sets the exit flag exactly when no lethal cell is in the span and the flag was already set or the own exit overlaps the box |
| Collisions.StandingInOwnExit | Game.cpp:66-72 | a box covering exactly its own exit cell, with nothing lethal in its span, is pushed by nothing and reaches its exit |
| Simulation.Steer | Game.cpp:13-19 | left and right keys move x by -160 dt and +160 dt (both together cancel), the jump key jumps only from the ground, nothing else changes |
| Simulation.ProcessInput | Game.cpp:10-20 | after a win input changes nothing; otherwise each character is steered by its keys; the map and the flags never change |
| Simulation.Update | Game.cpp:77-89 | after a win nothing changes; otherwise won holds exactly when both flags do; the map is unchanged; each character loses at most one life; a lost exit flag means a respawn at the own respawn point |
| Simulation.UpdateWinsExactly | Game.cpp:77-89 | when neither collision pass pushes, the frame is won exactly when each integrated character has nothing lethal in its span and had its flag already or overlaps its own exit |
| Simulation.WinIsReachable | Game.cpp:77-89 | with both characters covering their own exit cells and nothing lethal in their spans, a frame sets both flags and wins |
| Simulation.Frame | Game.cpp:143-145 | a frame keeps the map and the frame invariant |
| Simulation.Run | Game.cpp:135-148 | a session runs its frames in order, each input then update with the frame's dt; its properties are stated by Simulation.RunKeepsInvariant, Simulation.WonIsFinal and Simulation.LivesOnlyDecrease |
| Simulation.RunKeepsInvariant | Game.cpp:135-148 | over any session the map never changes, lives stay non-negative, grounded characters stay at rest, and a win implies both flags |
| Simulation.WonIsFinal | Game.cpp:11 | once won, no further frame changes anything |
| Simulation.LivesOnlyDecrease | Game.cpp:77-89 | over n frames lives never go up and drop by at most n |
| Simulation.ExitLostOnlyByRespawn | Game.cpp:56-63 | a frame that clears an exit flag has respawned that character at its respawn point |
| Simulation.NewGame | Game.cpp:100-125 | a new game has the generated map, both characters at the map's respawn points with 3 lives, no flag set and not won |
| Games.Game.constructor | Game.cpp:100-125 | a new Game (14 by 9 by default) is exactly Simulation.NewGame, with fresh map and characters named Fireboy and Watergirl |
| Games.Game.ProcessInput | Game.cpp:10-20 | the game changes exactly as Simulation.ProcessInput |
| Games.Game.Steer | Game.cpp:13-19 | one character's keys change it exactly as Simulation.Steer |
| Games.Game.VisitCell | Game.cpp:33-73 | one loop body changes the character and the flag exactly as Collisions.Visit and reports a respawn |
| Games.Game.HandleCollisions | Game.cpp:22-75 | the nested loops with early return leave the character and flag exactly as Collisions.Collide; the exit-kind argument is ignored |
| Games.Game.Update | Game.cpp:77-89 | the game changes exactly as Simulation.Update |
| Games.Game.Run | Game.cpp:135-148 | a session of frames changes the game exactly as Simulation.Run |

## Left out

- Rendering is not modelled because it is presentation: `Tile::draw`, `Map::draw`, `Character::draw`, `Game::render`, fill colours, `setFallbackAppearance`, texture loading and sprite scaling. `Tiles.Drawn` records only which tiles are drawn.
- The window is not modelled: its creation, event polling, closing and the `std::exit` on failure. `Game::run` is modelled over a finite sequence of frames, and the window always exists, so the `!window` test in `processInput` is not modelled.
- Keyboard polling is replaced by the `Intents` record. The clock is replaced by each frame's `dt`.
- `std::mt19937`, `std::random_device` and the uniform distributions are replaced by the `draws` sequence. Entropy seeding for seed 0 is therefore not modelled, and neither is the particular sequence that seed 12345 produces.
- IEEE float rounding is not modelled: positions, velocities and times are exact reals.
- `sf::FloatRect::intersects` is not part of this model. It is assumed to normalise both rectangles and report a positive-size intersection, so rectangles that only touch do not intersect.
- Sprite bounds are not modelled. The bounding box is always the 48 by 48 fallback square.
- Stream printing of Map, Character and Game is not modelled, because it is diagnostic output. The tile's `operator<<` is modelled as `Tiles.Write`.
- Copying of textures, sprites and shapes in the copy operations is not modelled. Only the simulation fields are copied.
- Negative map sizes are not modelled: dimensions are `nat`. Generation, and therefore `Games.Game.constructor`, requires width and height of at least 3, because smaller grids make the source index out of range.
- The getters (`getWidth`, `getHeight`, `getName`, `getLives`, `getPosition`, `getType`) are not separate members, because they only return fields. The model reads those fields directly.
- Games.Game.Run: models a finite session. The source loops until the window closes.
- Collisions.CollideReachesExit: states the exit flag in both directions only for passes in which no solid cell overlaps the box. When a push moves the character, the exit test uses the box after that push, and only the one-way statement of Collisions.CollideOutcome is proved.
- Simulation.UpdateWinsExactly: the same restriction, to frames in which neither collision pass pushes its character.

=== FILE: Characters.dfy ===
/**
 * A character as an object whose methods update its fields in place. Every
 * method is proved to move the character's state exactly as the matching
 * function of the Kinematics module says.
 */
module Characters {
  import opened Geometry
  import opened Tiles
  import Kinematics

  class Character {
    var name: string
    /** Fixed by the kind of character (Fireboy, Watergirl or a rock). */
    const element: Kinematics.Element
    /** World coordinates of the top-left corner. */
    var position: Vec2
    var velocity: Vec2
    var lives: int
    var onGround: bool

    /** The simulation state, as a value. */
    function State(): Kinematics.CharState
      reads this
    {
      Kinematics.CharState(position, velocity, lives, onGround)
    }

    /** The collision box, one tile square at the current position. */
    function Bounds(): (b: Rect)
      reads this
      ensures b == Kinematics.Box(position)
    {
      Rect(position.x, position.y, TileSide, TileSide)
    }

    /** A Fireboy character: element Fire, at rest and airborne at `pos`. */
    constructor Fireboy(nm: string, pos: Vec2 := Vec2(0.0, 0.0), lifeCount: int := Kinematics.DefaultLives)
      ensures name == nm && element == Kinematics.Element.Fire
      ensures State() == Kinematics.Spawned(pos, lifeCount)
    {
      name, element := nm, Kinematics.Element.Fire;
      position, velocity, lives, onGround := pos, Vec2(0.0, 0.0), lifeCount, false;
    }

    /** A Watergirl character: element Water, at rest and airborne at `pos`. */
    constructor Watergirl(nm: string, pos: Vec2 := Vec2(0.0, 0.0), lifeCount: int := Kinematics.DefaultLives)
      ensures name == nm && element == Kinematics.Element.Water
      ensures State() == Kinematics.Spawned(pos, lifeCount)
    {
      name, element := nm, Kinematics.Element.Water;
      position, velocity, lives, onGround := pos, Vec2(0.0, 0.0), lifeCount, false;
    }

    /** A rock: element Neutral, at rest and airborne at `pos`. */
    constructor Rock(nm: string, pos: Vec2 := Vec2(0.0, 0.0), lifeCount: int := Kinematics.DefaultLives)
      ensures name == nm && element == Kinematics.Element.Neutral
      ensures State() == Kinematics.Spawned(pos, lifeCount)
    {
      name, element := nm, Kinematics.Element.Neutral;
      position, velocity, lives, onGround := pos, Vec2(0.0, 0.0), lifeCount, false;
    }

    /** The copy constructor: same kind, name and state. */
    constructor Copy(other: Character)
      ensures name == other.name && element == other.element && State() == other.State()
    {
      name, element := other.name, other.element;
      position, velocity, lives, onGround := other.position, other.velocity, other.lives, other.onGround;
    }

    /**
     * Copy assignment: name and state are copied, but the element stays,
     * since it belongs to the kind of the assigned-to object.
     */
    method Assign(other: Character)
      modifies this
      ensures name == old(other.name) && State() == old(other.State())
    {
      if this == other {
        return;
      }
      name := other.name;
      position, velocity, lives, onGround := other.position, other.velocity, other.lives, other.onGround;
    }

    method SetOnGround(state: bool)
      modifies this
      ensures name == old(name)
      ensures State() == Kinematics.SetOnGround(old(State()), state)
    {
      onGround := state;
      if onGround {
        velocity := velocity.(y := 0.0);
      }
    }

    method SetPosition(p: Vec2)
      modifies this
      ensures name == old(name)
      ensures State() == Kinematics.SetPosition(old(State()), p)
    {
      position := p;
    }

    method MoveLeft(dt: real)
      modifies this
      ensures name == old(name)
      ensures State() == Kinematics.MoveLeft(old(State()), dt)
    {
      position := position.(x := position.x - Kinematics.Speed * dt);
    }

    method MoveRight(dt: real)
      modifies this
      ensures name == old(name)
      ensures State() == Kinematics.MoveRight(old(State()), dt)
    {
      position := position.(x := position.x + Kinematics.Speed * dt);
    }

    method Jump()
      modifies this
      ensures name == old(name)
      ensures State() == Kinematics.Jump(old(State()))
    {
      if onGround {
        velocity := velocity.(y := -Kinematics.JumpImpulse);
        onGround := false;
      }
    }

    method TakeDamageAndRespawn(respawnPos: Vec2)
      modifies this
      ensures name == old(name)
      ensures State() == Kinematics.TakeDamageAndRespawn(old(State()), respawnPos)
    {
      if lives > 0 {
        lives := lives - 1;
      }
      SetPosition(respawnPos);
      velocity := Vec2(0.0, 0.0);
      onGround := false;
    }

    method StopVerticalMovement()
      modifies this
      ensures name == old(name)
      ensures State() == Kinematics.StopVerticalMovement(old(State()))
    {
      velocity := velocity.(y := 0.0);
    }

    /**
     * One sub-step of the update loop: gravity while airborne, the move,
     * then the floor and wall clamps.
     */
    method SubStep(step: real, world: Rect)
      modifies this
      ensures name == old(name)
      ensures State() == Kinematics.SubStep(old(State()), step, world)
    {
      if !onGround {
        velocity := velocity.(y := velocity.y + Kinematics.Gravity * step);
      }
      position := Vec2(position.x + velocity.x * step, position.y + velocity.y * step);

      if position.y + TileSide > world.top + world.height {
        position := position.(y := world.top + world.height - TileSide);
        velocity := velocity.(y := 0.0);
        onGround := true;
      } else {
        onGround := false;
      }

      if position.x < world.left {
        position := position.(x := world.left);
      }
      if position.x + TileSide > world.left + world.width {
        position := position.(x := world.left + world.width - TileSide);
      }
    }

    /**
     * Integrates `dt` seconds in sub-steps of at most MaxStep, clamping the
     * character to `world` after each; always reports success.
     */
    method Update(dt: real, world: Rect) returns (ok: bool)
      modifies this
      ensures ok
      ensures name == old(name)
      ensures State() == Kinematics.Integrate(old(State()), dt, world)
    {
      var remaining := dt;
      while remaining > 0.0
        invariant name == old(name)
        invariant Kinematics.Integrate(State(), remaining, world) == Kinematics.Integrate(old(State()), dt, world)
        decreases Kinematics.StepsLeft(remaining)
      {
        var step := if Kinematics.MaxStep < remaining then Kinematics.MaxStep else remaining;
        SubStep(step, world);
        remaining := remaining - step;
      }
      ok := true;
    }
  }
}

=== FILE: Collisions.dfy ===
/**
 * Game::handleCollisions as functions on values: the tile span a character
 * box covers, what one visited cell does to the character, and the
 * row-major scan over the span that stops at the first hazard.
 */
module Collisions {
  import opened Geometry
  import opened Tiles
  import opened Grids
  import opened Kinematics

  /** Tiles that block a character of element `e`: walls, and pools of its own element. */
  predicate SolidFor(t: TileType, e: Element) {
    t == Solid || (t == TileType.Fire && e == Element.Fire) || (t == TileType.Water && e == Element.Water)
  }

  /** Tiles that cost a character of element `e` a life: pools of the other element. */
  predicate LethalFor(t: TileType, e: Element) {
    (t == TileType.Fire && e == Element.Water) || (t == TileType.Water && e == Element.Fire)
  }

  /** The exit tile of element `e`'s own colour. */
  predicate ExitFor(t: TileType, e: Element) {
    (t == ExitFire && e == Element.Fire) || (t == ExitWater && e == Element.Water)
  }

  /**
   * The tile rules: a pool is solid for its own element and lethal for the
   * other; nothing is both; a neutral character is blocked only by walls
   * and is never hurt and never at an exit.
   */
  lemma TileRules(t: TileType, e: Element)
    ensures !(SolidFor(t, e) && LethalFor(t, e)) && !(LethalFor(t, e) && ExitFor(t, e))
    ensures (t == TileType.Fire || t == TileType.Water) && e != Neutral ==> SolidFor(t, e) != LethalFor(t, e)
    ensures e == Neutral ==> (SolidFor(t, e) <==> t == Solid) && !LethalFor(t, e) && !ExitFor(t, e)
  {
  }

  /** The world rectangle of grid cell (c, r). */
  function TileRect(c: int, r: int): (b: Rect)
    ensures b.left == (c * TileSize) as real && b.top == (r * TileSize) as real
    ensures b.width == TileSide && b.height == TileSide
  {
    Rect((c * TileSize) as real, (r * TileSize) as real, TileSide, TileSide)
  }

  /**
   * Pushes the character out of the solid cell (c, r) it overlaps: it is
   * grounded either way; a box whose centre is above the tile's centre is
   * put on top of the tile, otherwise it is put just below it.
   */
  function Land(s: CharState, c: int, r: int): (s': CharState)
    ensures s'.onGround && s'.velocity == Vec2(s.velocity.x, 0.0) && s'.lives == s.lives
    ensures s'.position.x == s.position.x
    ensures s.position.y < (r * TileSize) as real ==> s'.position.y + TileSide == (r * TileSize) as real
    ensures (r * TileSize) as real <= s.position.y ==> s'.position.y == ((r + 1) * TileSize) as real
    ensures !Intersects(Box(s'.position), TileRect(c, r))
  {
    var cb := Box(s.position);
    var tile := TileRect(c, r);
    var charCenterY := cb.top + cb.height * 0.5;
    var tileCenterY := tile.top + tile.height * 0.5;
    var grounded := SetOnGround(s, true);
    if charCenterY < tileCenterY then
      SetPosition(grounded, Vec2(cb.left, tile.top - cb.height))
    else
      StopVerticalMovement(SetPosition(grounded, Vec2(cb.left, tile.top + tile.height)))
  }

  /** Inclusive column and row bounds of the cells the scan visits. */
  datatype Span = Span(left: int, right: int, top: int, bottom: int)

  /**
   * The columns and rows a box covers, clamped to the grid. The bottom row
   * truncates the box's bottom edge to an integer before dividing, which
   * amounts to the same as truncating the quotient.
   */
  function ScanSpan(m: MapState, b: Rect): (sp: Span)
    ensures 0 <= sp.left && sp.right <= m.width - 1
    ensures 0 <= sp.top && sp.bottom <= m.height - 1
    ensures sp.bottom == IMin(m.height - 1, Trunc((b.top + b.height) / TileSide))
  {
    TruncThenDivide(b.top + b.height);
    Span(IMax(0, Trunc(b.left / TileSide)),
         IMin(m.width - 1, Trunc((b.left + b.width) / TileSide)),
         IMax(0, Trunc(b.top / TileSide)),
         IMin(m.height - 1, DivToZero(Trunc(b.top + b.height), TileSize)))
  }

  predicate InSpan(sp: Span, c: int, r: int) {
    sp.left <= c <= sp.right && sp.top <= r <= sp.bottom
  }

  /** Every grid cell a character's box overlaps lies in the span the scan visits. */
  lemma SpanCoversOverlaps(m: MapState, p: Vec2, c: int, r: int)
    requires 0 <= c < m.width && 0 <= r < m.height
    requires Intersects(Box(p), TileRect(c, r))
    ensures InSpan(ScanSpan(m, Box(p)), c, r)
  {
    var sp := ScanSpan(m, Box(p));
    var b := Box(p);
    assert b.left < (c * TileSize) as real + TileSide && (c * TileSize) as real < b.left + TileSide;
    assert b.top < (r * TileSize) as real + TileSide && (r * TileSize) as real < b.top + TileSide;
    CoveredIndex(p.x, c);
    CoveredIndex(p.y, r);
  }

  /** If a tile at index `i` overlaps the segment [x, x+48), then i lies between the truncated ends. */
  lemma CoveredIndex(x: real, i: int)
    requires 0 <= i
    requires x < (i * TileSize) as real + TileSide && (i * TileSize) as real < x + TileSide
    ensures IMax(0, Trunc(x / TileSide)) <= i <= Trunc((x + TileSide) / TileSide)
  {
    assert x / TileSide < i as real + 1.0;
    assert (i as real) < (x + TileSide) / TileSide;
  }

  /**
   * A box standing exactly on the top edge of cell (c, r), with its left
   * edge at the cell's left edge, has that cell in its span although the
   * two do not overlap: the scan reaches the tile under the feet.
   */
  lemma StandingCellIsScanned(m: MapState, c: int, r: int)
    requires 0 <= c < m.width && 1 <= r < m.height
    ensures !Intersects(Box(Vec2((c * TileSize) as real, ((r - 1) * TileSize) as real)), TileRect(c, r))
    ensures InSpan(ScanSpan(m, Box(Vec2((c * TileSize) as real, ((r - 1) * TileSize) as real))), c, r)
  {
    var p := Vec2((c * TileSize) as real, ((r - 1) * TileSize) as real);
    assert p.x / TileSide == c as real;
    assert (p.x + TileSide) / TileSide == (c + 1) as real;
    assert p.y / TileSide == (r - 1) as real;
    assert (p.y + TileSide) / TileSide == r as real;
  }

  /** What the scan carries from cell to cell: the character, its exit flag, and whether it was respawned. */
  datatype Contact = Contact(body: CharState, atExit: bool, respawned: bool)

  /**
   * One visited cell: a solid cell the box overlaps pushes the character
   * out; a lethal cell respawns it and clears the exit flag whether or not
   * it overlaps; its own exit sets the flag when the box (after any push)
   * overlaps it. Nothing else changes the flag.
   */
  function Visit(m: MapState, e: Element, respawn: Vec2, c: int, r: int, s: CharState, flag: bool): (k: Contact)
    requires m.Valid()
    ensures k.respawned <==> LethalFor(TypeAtGrid(m, c, r), e)
    ensures k.respawned ==> !k.atExit && k.body == TakeDamageAndRespawn(s, respawn)
    ensures !k.respawned ==> k.atExit == (flag || (ExitFor(TypeAtGrid(m, c, r), e) && Intersects(Box(k.body.position), TileRect(c, r))))
    ensures !k.respawned && k.body != s ==>
              SolidFor(TypeAtGrid(m, c, r), e) && Intersects(Box(s.position), TileRect(c, r)) && k.body == Land(s, c, r)
  {
    var t := TypeAtGrid(m, c, r);
    var s1 := if SolidFor(t, e) && Intersects(Box(s.position), TileRect(c, r)) then Land(s, c, r) else s;
    if LethalFor(t, e) then
      Contact(TakeDamageAndRespawn(s1, respawn), false, true)
    else if ExitFor(t, e) && Intersects(Box(s1.position), TileRect(c, r)) then
      Contact(s1, true, false)
    else
      Contact(s1, flag, false)
  }

  /**
   * The scan from cell (c, r) on, row by row and left to right within each
   * row, stopping at the first lethal cell. The span is fixed before the
   * scan starts, even though pushes move the character.
   */
  function ScanFrom(m: MapState, e: Element, respawn: Vec2, sp: Span, r: int, c: int, s: CharState, flag: bool): (k: Contact)
    requires m.Valid()
    ensures k.respawned ==>
              k.body == Spawned(respawn, LifeAfterHit(s.lives)) && !k.atExit
    ensures !k.respawned ==>
              k.body.lives == s.lives && k.body.position.x == s.position.x && k.body.velocity.x == s.velocity.x
    ensures !k.respawned && flag ==> k.atExit
    ensures !k.respawned && k.body != s ==> k.body.onGround && k.body.velocity.y == 0.0
    ensures Resting(s) ==> Resting(k.body)
    ensures e == Neutral ==> !k.respawned && k.atExit == flag
    decreases sp.bottom - r + 1, sp.right - c + 1
  {
    if r > sp.bottom then Contact(s, flag, false)
    else if c > sp.right then ScanFrom(m, e, respawn, sp, r + 1, sp.left, s, flag)
    else
      var v := Visit(m, e, respawn, c, r, s, flag);
      if v.respawned then v
      else ScanFrom(m, e, respawn, sp, r, c + 1, v.body, v.atExit)
  }

  /** The scan's three cases, one at a time: past the last row, past the end of a row, at a cell. */
  lemma ScanUnfolds(m: MapState, e: Element, respawn: Vec2, sp: Span, r: int, c: int, s: CharState, flag: bool)
    requires m.Valid()
    ensures r > sp.bottom ==> ScanFrom(m, e, respawn, sp, r, c, s, flag) == Contact(s, flag, false)
    ensures r <= sp.bottom && c > sp.right ==>
              ScanFrom(m, e, respawn, sp, r, c, s, flag) == ScanFrom(m, e, respawn, sp, r + 1, sp.left, s, flag)
    ensures r <= sp.bottom && c <= sp.right ==>
              var v := Visit(m, e, respawn, c, r, s, flag);
              ScanFrom(m, e, respawn, sp, r, c, s, flag)
                == if v.respawned then v else ScanFrom(m, e, respawn, sp, r, c + 1, v.body, v.atExit)
  {
  }

  /** A cell at or after (c, r) in scan order, inside the span. */
  predicate Ahead(sp: Span, r: int, c: int, r': int, c': int) {
    InSpan(sp, c', r') && (r < r' || (r == r' && c <= c'))
  }

  /** Some cell ahead of (c, r) in the span is lethal for `e`. */
  ghost predicate LethalAhead(m: MapState, e: Element, sp: Span, r: int, c: int)
    requires m.Valid()
  {
    exists r', c' :: Ahead(sp, r, c, r', c') && LethalFor(TypeAtGrid(m, c', r'), e)
  }

  /** Some cell ahead of (c, r) in the span is `e`'s own exit. */
  ghost predicate ExitAhead(m: MapState, e: Element, sp: Span, r: int, c: int)
    requires m.Valid()
  {
    exists r', c' :: Ahead(sp, r, c, r', c') && ExitFor(TypeAtGrid(m, c', r'), e)
  }

  /**
   * The scan respawns the character exactly when the span holds a lethal
   * cell from (c, r) on, for any (c, r) not above or left of the span.
   * Where it is not respawned, the
   * flag is set only if it was set before or the span holds its own exit.
   */
  lemma {:induction false} ScanFindsHazards(m: MapState, e: Element, respawn: Vec2, sp: Span, r: int, c: int, s: CharState, flag: bool)
    requires m.Valid() && sp.left <= c && sp.top <= r
    ensures ScanFrom(m, e, respawn, sp, r, c, s, flag).respawned <==> LethalAhead(m, e, sp, r, c)
    ensures ScanFrom(m, e, respawn, sp, r, c, s, flag).atExit ==> flag || ExitAhead(m, e, sp, r, c)
    decreases sp.bottom - r + 1, sp.right - c + 1
  {
    if r > sp.bottom {
      assert !LethalAhead(m, e, sp, r, c);
      assert !ExitAhead(m, e, sp, r, c);
    } else if c > sp.right {
      ScanFindsHazards(m, e, respawn, sp, r + 1, sp.left, s, flag);
      AheadNextRow(m, e, sp, r, c);
    } else {
      var v := Visit(m, e, respawn, c, r, s, flag);
      if v.respawned {
        assert Ahead(sp, r, c, r, c);
      } else {
        ScanFindsHazards(m, e, respawn, sp, r, c + 1, v.body, v.atExit);
        AheadNextCell(m, e, sp, r, c);
        if v.atExit && !flag {
          assert Ahead(sp, r, c, r, c);
        }
      }
    }
  }

  /** Past the end of a row, what lies ahead is what lies ahead from the next row's start. */
  lemma AheadNextRow(m: MapState, e: Element, sp: Span, r: int, c: int)
    requires m.Valid() && c > sp.right
    ensures LethalAhead(m, e, sp, r, c) <==> LethalAhead(m, e, sp, r + 1, sp.left)
    ensures ExitAhead(m, e, sp, r, c) <==> ExitAhead(m, e, sp, r + 1, sp.left)
  {
    if LethalAhead(m, e, sp, r, c) {
      var r', c' :| Ahead(sp, r, c, r', c') && LethalFor(TypeAtGrid(m, c', r'), e);
      assert Ahead(sp, r + 1, sp.left, r', c');
    }
    if ExitAhead(m, e, sp, r, c) {
      var r', c' :| Ahead(sp, r, c, r', c') && ExitFor(TypeAtGrid(m, c', r'), e);
      assert Ahead(sp, r + 1, sp.left, r', c');
    }
  }

  /** What lies ahead of a cell is that cell and what lies ahead of the next one. */
  lemma AheadNextCell(m: MapState, e: Element, sp: Span, r: int, c: int)
    requires m.Valid() && sp.left <= c <= sp.right && sp.top <= r <= sp.bottom
    ensures LethalAhead(m, e, sp, r, c) <==> LethalFor(TypeAtGrid(m, c, r), e) || LethalAhead(m, e, sp, r, c + 1)
    ensures ExitAhead(m, e, sp, r, c) <==> ExitFor(TypeAtGrid(m, c, r), e) || ExitAhead(m, e, sp, r, c + 1)
  {
    assert Ahead(sp, r, c, r, c);
    if LethalAhead(m, e, sp, r, c) && !LethalFor(TypeAtGrid(m, c, r), e) {
      var r', c' :| Ahead(sp, r, c, r', c') && LethalFor(TypeAtGrid(m, c', r'), e);
      assert Ahead(sp, r, c + 1, r', c');
    }
    if ExitAhead(m, e, sp, r, c) && !ExitFor(TypeAtGrid(m, c, r), e) {
      var r', c' :| Ahead(sp, r, c, r', c') && ExitFor(TypeAtGrid(m, c', r'), e);
      assert Ahead(sp, r, c + 1, r', c');
    }
  }

  /** Some cell ahead of (c, r) in the span is solid for `e` and overlaps the box at `p`. */
  ghost predicate PushAhead(m: MapState, e: Element, sp: Span, r: int, c: int, p: Vec2)
    requires m.Valid()
  {
    exists r', c' :: Ahead(sp, r, c, r', c') && SolidFor(TypeAtGrid(m, c', r'), e) && Intersects(Box(p), TileRect(c', r'))
  }

  /** Some cell ahead of (c, r) in the span is `e`'s own exit and overlaps the box at `p`. */
  ghost predicate ExitReachedAhead(m: MapState, e: Element, sp: Span, r: int, c: int, p: Vec2)
    requires m.Valid()
  {
    exists r', c' :: Ahead(sp, r, c, r', c') && ExitFor(TypeAtGrid(m, c', r'), e) && Intersects(Box(p), TileRect(c', r'))
  }

  /** The overlap predicates step through the span as LethalAhead and ExitAhead do. */
  lemma OverlapAheadSteps(m: MapState, e: Element, sp: Span, r: int, c: int, p: Vec2)
    requires m.Valid()
    ensures c > sp.right ==>
              (PushAhead(m, e, sp, r, c, p) <==> PushAhead(m, e, sp, r + 1, sp.left, p)) &&
              (ExitReachedAhead(m, e, sp, r, c, p) <==> ExitReachedAhead(m, e, sp, r + 1, sp.left, p))
    ensures sp.left <= c <= sp.right && sp.top <= r <= sp.bottom ==>
              (PushAhead(m, e, sp, r, c, p) <==>
                 (SolidFor(TypeAtGrid(m, c, r), e) && Intersects(Box(p), TileRect(c, r))) || PushAhead(m, e, sp, r, c + 1, p)) &&
              (ExitReachedAhead(m, e, sp, r, c, p) <==>
                 (ExitFor(TypeAtGrid(m, c, r), e) && Intersects(Box(p), TileRect(c, r))) || ExitReachedAhead(m, e, sp, r, c + 1, p))
  {
    if c > sp.right {
      if PushAhead(m, e, sp, r, c, p) {
        var r', c' :| Ahead(sp, r, c, r', c') && SolidFor(TypeAtGrid(m, c', r'), e) && Intersects(Box(p), TileRect(c', r'));
        assert Ahead(sp, r + 1, sp.left, r', c');
      }
      if ExitReachedAhead(m, e, sp, r, c, p) {
        var r', c' :| Ahead(sp, r, c, r', c') && ExitFor(TypeAtGrid(m, c', r'), e) && Intersects(Box(p), TileRect(c', r'));
        assert Ahead(sp, r + 1, sp.left, r', c');
      }
    } else if sp.left <= c && sp.top <= r <= sp.bottom {
      assert Ahead(sp, r, c, r, c);
      if PushAhead(m, e, sp, r, c, p) {
        var r', c' :| Ahead(sp, r, c, r', c') && SolidFor(TypeAtGrid(m, c', r'), e) && Intersects(Box(p), TileRect(c', r'));
        if (r', c') != (r, c) {
          assert Ahead(sp, r, c + 1, r', c');
        }
      }
      if ExitReachedAhead(m, e, sp, r, c, p) {
        var r', c' :| Ahead(sp, r, c, r', c') && ExitFor(TypeAtGrid(m, c', r'), e) && Intersects(Box(p), TileRect(c', r'));
        if (r', c') != (r, c) {
          assert Ahead(sp, r, c + 1, r', c');
        }
      }
    }
  }

  /**
   * When no cell ahead pushes the character, the scan leaves it where it
   * is unless it respawns, and it ends at its exit exactly when no lethal
   * cell lies ahead and the flag was set or an own exit ahead overlaps
   * the box.
   */
  lemma {:induction false} ScanReachesExit(m: MapState, e: Element, respawn: Vec2, sp: Span, r: int, c: int, s: CharState, flag: bool)
    requires m.Valid() && sp.left <= c && sp.top <= r
    requires !PushAhead(m, e, sp, r, c, s.position)
    ensures !ScanFrom(m, e, respawn, sp, r, c, s, flag).respawned ==> ScanFrom(m, e, respawn, sp, r, c, s, flag).body == s
    ensures ScanFrom(m, e, respawn, sp, r, c, s, flag).atExit <==>
              !LethalAhead(m, e, sp, r, c) && (flag || ExitReachedAhead(m, e, sp, r, c, s.position))
    decreases sp.bottom - r + 1, sp.right - c + 1
  {
    OverlapAheadSteps(m, e, sp, r, c, s.position);
    if r > sp.bottom {
      assert !LethalAhead(m, e, sp, r, c);
      assert !ExitReachedAhead(m, e, sp, r, c, s.position);
    } else if c > sp.right {
      AheadNextRow(m, e, sp, r, c);
      ScanReachesExit(m, e, respawn, sp, r + 1, sp.left, s, flag);
    } else {
      AheadNextCell(m, e, sp, r, c);
      var v := Visit(m, e, respawn, c, r, s, flag);
      if !v.respawned {
        assert v.body == s;
        ScanReachesExit(m, e, respawn, sp, r, c + 1, s, v.atExit);
      }
    }
  }

  /** Game::handleCollisions for one character: the scan over the span of its box, from the top-left cell. */
  function Collide(m: MapState, e: Element, respawn: Vec2, s: CharState, flag: bool): (k: Contact)
    requires m.Valid()
  {
    var sp := ScanSpan(m, Box(s.position));
    ScanFrom(m, e, respawn, sp, sp.top, sp.left, s, flag)
  }

  /**
   * The outcome of one collision pass: the character is respawned exactly
   * when a lethal cell lies in the span of its box, and then it stands at
   * the respawn point, at rest, airborne, one life down (never below zero)
   * and no longer at the exit. Otherwise it keeps its lives, horizontal
   * position and velocity, keeps a set exit flag, gains it only from its
   * own exit in the span, and if pushed it is grounded with no vertical
   * speed. Neutral characters are never respawned and never reach an exit.
   */
  lemma CollideOutcome(m: MapState, e: Element, respawn: Vec2, s: CharState, flag: bool)
    requires m.Valid()
    ensures var sp := ScanSpan(m, Box(s.position));
            Collide(m, e, respawn, s, flag).respawned <==> LethalAhead(m, e, sp, sp.top, sp.left)
    ensures var k := Collide(m, e, respawn, s, flag);
            k.respawned ==> k.body == Spawned(respawn, LifeAfterHit(s.lives)) && !k.atExit
    ensures var k := Collide(m, e, respawn, s, flag);
            !k.respawned ==> k.body.lives == s.lives && k.body.position.x == s.position.x
                             && k.body.velocity.x == s.velocity.x && (flag ==> k.atExit)
    ensures var sp := ScanSpan(m, Box(s.position));
            Collide(m, e, respawn, s, flag).atExit ==> flag || ExitAhead(m, e, sp, sp.top, sp.left)
    ensures e == Neutral ==> !Collide(m, e, respawn, s, flag).respawned && Collide(m, e, respawn, s, flag).atExit == flag
  {
    var sp := ScanSpan(m, Box(s.position));
    ScanFindsHazards(m, e, respawn, sp, sp.top, sp.left, s, flag);
  }

  /** No solid cell in the span of the box at `s` overlaps it, so the pass pushes nothing. */
  ghost predicate NothingPushes(m: MapState, e: Element, s: CharState)
    requires m.Valid()
  {
    var sp := ScanSpan(m, Box(s.position));
    !PushAhead(m, e, sp, sp.top, sp.left, s.position)
  }

  /** No lethal cell lies in the span, and the flag was set or an own exit in the span overlaps the box. */
  ghost predicate ReachesExit(m: MapState, e: Element, s: CharState, flag: bool)
    requires m.Valid()
  {
    var sp := ScanSpan(m, Box(s.position));
    !LethalAhead(m, e, sp, sp.top, sp.left) && (flag || ExitReachedAhead(m, e, sp, sp.top, sp.left, s.position))
  }

  /**
   * The other direction of the exit flag: in a pass that pushes nothing,
   * the character ends at its exit exactly when nothing lethal lies in the
   * span and its flag was already set or its own exit overlaps its box;
   * unless respawned, it does not move.
   */
  lemma CollideReachesExit(m: MapState, e: Element, respawn: Vec2, s: CharState, flag: bool)
    requires m.Valid() && NothingPushes(m, e, s)
    ensures Collide(m, e, respawn, s, flag).atExit <==> ReachesExit(m, e, s, flag)
    ensures !Collide(m, e, respawn, s, flag).respawned ==> Collide(m, e, respawn, s, flag).body == s
  {
    var sp := ScanSpan(m, Box(s.position));
    ScanReachesExit(m, e, respawn, sp, sp.top, sp.left, s, flag);
  }

  /**
   * A character whose box covers exactly its own exit cell, with nothing
   * lethal in its span, is pushed by nothing and reaches its exit: the
   * flag can be gained.
   */
  lemma StandingInOwnExit(m: MapState, e: Element, c: int, r: int, s: CharState)
    requires m.Valid() && 0 <= c < m.width && 0 <= r < m.height
    requires ExitFor(TypeAtGrid(m, c, r), e)
    requires s.position == Vec2((c * TileSize) as real, (r * TileSize) as real)
    requires forall r', c' :: InSpan(ScanSpan(m, Box(s.position)), c', r') ==> !LethalFor(TypeAtGrid(m, c', r'), e)
    ensures NothingPushes(m, e, s) && ReachesExit(m, e, s, false)
  {
    var sp := ScanSpan(m, Box(s.position));
    SpanCoversOverlaps(m, s.position, c, r);
    assert Ahead(sp, sp.top, sp.left, r, c);
    if PushAhead(m, e, sp, sp.top, sp.left, s.position) {
      var r', c' :| Ahead(sp, sp.top, sp.left, r', c') && SolidFor(TypeAtGrid(m, c', r'), e)
                    && Intersects(Box(s.position), TileRect(c', r'));
      assert false;
    }
  }
}

=== FILE: Games.dfy ===
/**
 * The Game object: the map, the two characters and the exit and win flags,
 * updated in place frame by frame. Each method is proved to change the
 * game exactly as the matching function of the Simulation module says.
 */
module Games {
  import opened Geometry
  import opened Tiles
  import opened Grids
  import opened Generation
  import Kinematics
  import opened Collisions
  import opened Maps
  import opened Characters
  import Simulation

  class Game {
    const level: Map
    const fireboy: Character
    const watergirl: Character
    var fireboyAtExit: bool
    var watergirlAtExit: bool
    var won: bool

    /** A well-formed map and two distinct characters of the right elements. */
    ghost predicate Valid()
      reads this, level, fireboy, watergirl
    {
      level.Valid() && fireboy != watergirl
      && fireboy.element == Kinematics.Element.Fire && watergirl.element == Kinematics.Element.Water
    }

    /** The game as a value. */
    function State(): Simulation.GameState
      reads this, level, fireboy, watergirl
    {
      Simulation.GameState(level.View(), fireboy.State(), watergirl.State(), fireboyAtExit, watergirlAtExit, won)
    }

    /**
     * Game(mapW, mapH): a mapW by mapH map (14 by 9 by default) with
     * ascending platforms laid from `draws`, Fireboy and Watergirl with
     * three lives at their respawn points, no exit reached, not won.
     */
    constructor (draws: seq<int>, mapW: nat := 14, mapH: nat := 9)
      requires 3 <= mapW && 3 <= mapH && DrawsFit(draws, mapW)
      ensures Valid() && fresh(level) && fresh(fireboy) && fresh(watergirl)
      ensures State() == Simulation.NewGame(mapW, mapH, draws)
      ensures fireboy.name == "Fireboy" && watergirl.name == "Watergirl"
    {
      level := new Map(mapW, mapH);
      fireboy := new Character.Fireboy("Fireboy", Vec2(TileSide * 1.0, TileSide * (mapH as real - 2.0)), 3);
      watergirl := new Character.Watergirl("Watergirl", Vec2(TileSide * 5.0, TileSide * (mapH as real - 2.0)), 3);
      fireboyAtExit, watergirlAtExit, won := false, false, false;
      new;
      level.GenerateAscendingPlatforms(draws);
    }

    /** Game::processInput: A, D, W steer Fireboy, F, H, T steer Watergirl; ignored once won. */
    method ProcessInput(dt: real, keys: Simulation.Intents)
      requires Valid()
      modifies fireboy, watergirl
      ensures Valid() && fireboy.name == old(fireboy.name) && watergirl.name == old(watergirl.name)
      ensures State() == Simulation.ProcessInput(old(State()), dt, keys)
    {
      if won {
        return;
      }
      Steer(fireboy, keys.fireLeft, keys.fireRight, keys.fireJump, dt);
      Steer(watergirl, keys.waterLeft, keys.waterRight, keys.waterJump, dt);
    }

    /** One character's three keys, in the order processInput tests them: left, right, jump. */
    method Steer(ch: Character, left: bool, right: bool, jump: bool, dt: real)
      modifies ch
      ensures ch.name == old(ch.name)
      ensures ch.State() == Simulation.Steer(old(ch.State()), left, right, jump, dt)
    {
      if left {
        ch.MoveLeft(dt);
      }
      if right {
        ch.MoveRight(dt);
      }
      if jump {
        ch.Jump();
      }
    }

    /**
     * The work of handleCollisions at one cell: push out of a solid tile
     * the box overlaps, respawn on a lethal tile, set the flag on the own
     * exit the box overlaps. `hit` reports a respawn, which ends the scan.
     */
    method VisitCell(ch: Character, respawnPos: Vec2, reached: bool, c: int, r: int) returns (reachedOut: bool, hit: bool)
      requires level.Valid()
      modifies ch
      ensures ch.name == old(ch.name)
      ensures Collisions.Visit(level.View(), ch.element, respawnPos, c, r, old(ch.State()), reached)
              == Contact(ch.State(), reachedOut, hit)
    {
      var tt := TypeAtGrid(level.View(), c, r);
      var isSolidForThis := false;
      if tt == Solid {
        isSolidForThis := true;
      } else if tt == TileType.Fire && ch.element == Kinematics.Element.Fire {
        isSolidForThis := true;
      } else if tt == TileType.Water && ch.element == Kinematics.Element.Water {
        isSolidForThis := true;
      }

      if isSolidForThis {
        var tileRect := TileRect(c, r);
        var cb := ch.Bounds();
        if Intersects(cb, tileRect) {
          var charCenterY := cb.top + cb.height * 0.5;
          var tileCenterY := tileRect.top + tileRect.height * 0.5;
          ch.SetOnGround(true);
          if charCenterY < tileCenterY {
            ch.SetPosition(Vec2(cb.left, tileRect.top - cb.height));
          } else {
            ch.SetPosition(Vec2(cb.left, tileRect.top + tileRect.height));
            ch.StopVerticalMovement();
          }
        }
      }

      reachedOut, hit := reached, false;
      if tt == TileType.Fire && ch.element == Kinematics.Element.Water {
        ch.TakeDamageAndRespawn(respawnPos);
        reachedOut, hit := false, true;
        return;
      } else if tt == TileType.Water && ch.element == Kinematics.Element.Fire {
        ch.TakeDamageAndRespawn(respawnPos);
        reachedOut, hit := false, true;
        return;
      }

      if tt == ExitFire && ch.element == Kinematics.Element.Fire {
        if Intersects(ch.Bounds(), TileRect(c, r)) {
          reachedOut := true;
        }
      } else if tt == ExitWater && ch.element == Kinematics.Element.Water {
        if Intersects(ch.Bounds(), TileRect(c, r)) {
          reachedOut := true;
        }
      }
    }

    /**
     * Game::handleCollisions: scans the cells under the character's box,
     * row by row, stopping at the first lethal cell. The exit-kind
     * argument is unused.
     */
    method HandleCollisions(ch: Character, respawnPos: Vec2, reached: bool, whatExit: TileType) returns (reachedOut: bool)
      requires level.Valid()
      modifies ch
      ensures ch.name == old(ch.name)
      ensures var k := Collide(level.View(), ch.element, respawnPos, old(ch.State()), reached);
              ch.State() == k.body && reachedOut == k.atExit
    {
      var m := level.View();
      var sp := ScanSpan(m, ch.Bounds());
      ghost var goal := ScanFrom(m, ch.element, respawnPos, sp, sp.top, sp.left, ch.State(), reached);
      reachedOut := reached;
      var r := sp.top;
      while r <= sp.bottom
        invariant ch.name == old(ch.name)
        invariant ScanFrom(m, ch.element, respawnPos, sp, r, sp.left, ch.State(), reachedOut) == goal
        decreases sp.bottom - r + 1
      {
        var c := sp.left;
        while c <= sp.right
          invariant ch.name == old(ch.name)
          invariant ScanFrom(m, ch.element, respawnPos, sp, r, c, ch.State(), reachedOut) == goal
          decreases sp.right - c + 1
        {
          ScanUnfolds(m, ch.element, respawnPos, sp, r, c, ch.State(), reachedOut);
          var hit;
          reachedOut, hit := VisitCell(ch, respawnPos, reachedOut, c, r);
          if hit {
            return;
          }
          c := c + 1;
        }
        ScanUnfolds(m, ch.element, respawnPos, sp, r, c, ch.State(), reachedOut);
        r := r + 1;
      }
      ScanUnfolds(m, ch.element, respawnPos, sp, r, sp.left, ch.State(), reachedOut);
    }

    /**
     * Game::update: physics for both characters within the world bounds,
     * Fireboy's collisions then Watergirl's, and the win once both exit
     * flags are set. Does nothing after a win.
     */
    method Update(dt: real)
      requires Valid()
      modifies this, fireboy, watergirl
      ensures Valid() && fireboy.name == old(fireboy.name) && watergirl.name == old(watergirl.name)
      ensures State() == Simulation.Update(old(State()), dt)
    {
      if won {
        return;
      }
      var world := WorldBounds(level.View());
      var _ := fireboy.Update(dt, world);
      var _ := watergirl.Update(dt, world);

      fireboyAtExit := HandleCollisions(fireboy, RespawnWorldPosForFire(level.View()), fireboyAtExit, ExitFire);
      watergirlAtExit := HandleCollisions(watergirl, RespawnWorldPosForWater(level.View()), watergirlAtExit, ExitWater);

      if fireboyAtExit && watergirlAtExit {
        won := true;
      }
    }

    /**
     * Game::run over a finite sequence of frames, each taking its elapsed
     * time and keys from `ticks`: input, then update, frame after frame.
     */
    method Run(ticks: seq<Simulation.Tick>)
      requires Valid()
      modifies this, fireboy, watergirl
      ensures Valid()
      ensures State() == Simulation.Run(old(State()), ticks)
    {
      var i := 0;
      while i < |ticks|
        invariant 0 <= i <= |ticks|
        invariant Valid()
        invariant Simulation.Run(State(), ticks[i..]) == Simulation.Run(old(State()), ticks)
      {
        ProcessInput(ticks[i].dt, ticks[i].keys);
        Update(ticks[i].dt);
        assert ticks[i..][1..] == ticks[i + 1..];
        i := i + 1;
      }
    }
  }
}

=== FILE: Generation.dfy ===
/**
 * Map::generateAscendingPlatforms as a function of the grid size and of the
 * random draws. The generator's random source is replaced by a sequence of
 * draws, each in [1,3]: iteration i of the platform walk takes its platform
 * length from draws[2i] and its gap from draws[2i+1]. With the draws fixed,
 * generation is deterministic.
 */
module Generation {
  import opened Options
  import opened Tiles
  import opened Grids

  /** Every draw lies in [1,3], and there are at least `w` of them (more than the walk consumes). */
  predicate DrawsFit(draws: seq<int>, w: int) {
    w <= |draws| && forall i :: 0 <= i < |draws| ==> 1 <= draws[i] <= 3
  }

  /**
   * The inner loop of the walk: lays up to `k` Solid tiles in `row` from
   * column `c` rightwards, never reaching column w-1. Gives the grid and the
   * column after the last tile laid.
   */
  function Lay(g: Grid, w: int, row: int, c: int, k: int): (res: (Grid, int))
    requires WellFormed(g, w, |g|) && 0 <= row < |g| && 0 <= c
    ensures WellFormed(res.0, w, |g|)
    ensures c <= res.1 && (0 < k && c < w - 1 ==> c < res.1)
    decreases k
  {
    if k <= 0 || c >= w - 1 then (g, c)
    else Lay(Put(g, c, row, Solid), w, row, c + 1, k - 1)
  }

  /**
   * The outer while loop of the walk from column cursor `c`, current row
   * `row`, with draws[next..] still unused.
   */
  function Walk(g: Grid, w: int, h: int, draws: seq<int>, next: nat, c: int, row: int): (res: Grid)
    requires WellFormed(g, w, h) && DrawsFit(draws, w)
    requires 1 <= c && next + 1 <= c && row <= h - 2
    ensures WellFormed(res, w, h)
    decreases w - c
  {
    if c < w - 1 && row > 0 then
      var laid := Lay(g, w, row, c, draws[next]);
      Walk(laid.0, w, h, draws, next + 2, laid.1 + draws[next + 1], if row > 1 then row - 1 else row)
    else g
  }

  /** One round of the walk: a platform, a gap, and one row up while above row 1. */
  lemma WalkStep(g: Grid, w: int, h: int, draws: seq<int>, next: nat, c: int, row: int)
    requires WellFormed(g, w, h) && DrawsFit(draws, w)
    requires 1 <= c && next + 1 <= c && row <= h - 2 && c < w - 1 && 0 < row
    ensures var laid := Lay(g, w, row, c, draws[next]);
            Walk(g, w, h, draws, next, c, row)
              == Walk(laid.0, w, h, draws, next + 2, laid.1 + draws[next + 1], if row > 1 then row - 1 else row)
  {
  }

  predicate InGrid(w: int, h: int, c: int, r: int) {
    0 <= c < w && 0 <= r < h
  }

  /** Every one of the fixed writes indexes a cell of a `w` by `h` grid. */
  predicate FixedWritesFit(w: int, h: int) {
    && InGrid(w, h, 2, h - 2)
    && InGrid(w, h, w - 3, h - 3)
    && InGrid(w, h, w - 2, 1)
    && InGrid(w, h, 1, 1)
    && (h > 3 ==> InGrid(w, h, 1, 3))
    && (h > 5 && w > 2 ==> InGrid(w, h, 2, 5))
  }

  /** The fixed writes stay inside the grid exactly when it is at least 3 by 3. */
  lemma FixedWritesFitExactly(w: nat, h: nat)
    ensures FixedWritesFit(w, h) <==> 3 <= w && 3 <= h
  {
  }

  /**
   * The type the fixed writes leave in cell (c, r), if any of them hits it.
   * The writes happen in the order Fire, Water, ExitFire, ExitWater, Solid,
   * Solid; this lists them latest first, so the first match is the write
   * that wins.
   */
  function FixedAt(w: int, h: int, c: int, r: int): Option<TileType> {
    if h > 5 && w > 2 && c == 2 && r == 5 then Some(Solid)
    else if h > 3 && c == 1 && r == 3 then Some(Solid)
    else if c == 1 && r == 1 then Some(ExitWater)
    else if c == w - 2 && r == 1 then Some(ExitFire)
    else if c == w - 3 && r == h - 3 then Some(Water)
    else if c == 2 && r == h - 2 then Some(Fire)
    else None
  }

  /** The fixed hazard, exit and Solid writes that follow the walk, in source order. */
  function Place(g: Grid, w: int, h: int): (res: Grid)
    requires WellFormed(g, w, h) && 3 <= w && 3 <= h
    ensures WellFormed(res, w, h)
  {
    var g1 := Put(g, 2, h - 2, Fire);
    PutKeepsWellFormed(g, w, h, 2, h - 2, Fire);
    var g2 := Put(g1, w - 3, h - 3, Water);
    PutKeepsWellFormed(g1, w, h, w - 3, h - 3, Water);
    var g3 := Put(g2, w - 2, 1, ExitFire);
    PutKeepsWellFormed(g2, w, h, w - 2, 1, ExitFire);
    var g4 := Put(g3, 1, 1, ExitWater);
    PutKeepsWellFormed(g3, w, h, 1, 1, ExitWater);
    var g5 := if h > 3 then PutKeepsWellFormed(g4, w, h, 1, 3, Solid); Put(g4, 1, 3, Solid) else g4;
    if h > 5 && w > 2 then PutKeepsWellFormed(g5, w, h, 2, 5, Solid); Put(g5, 2, 5, Solid) else g5
  }

  /** Later fixed writes win: each cell ends with the last write to it, or keeps the walk's tile. */
  lemma PlaceOverwrites(g: Grid, w: int, h: int)
    requires WellFormed(g, w, h) && 3 <= w && 3 <= h
    ensures forall r, c :: 0 <= r < h && 0 <= c < w ==>
              Place(g, w, h)[r][c].tileType ==
                (if FixedAt(w, h, c, r).Some? then FixedAt(w, h, c, r).value else g[r][c].tileType)
  {
    var g1 := Put(g, 2, h - 2, Fire);
    var g2 := Put(g1, w - 3, h - 3, Water);
    var g3 := Put(g2, w - 2, 1, ExitFire);
    var g4 := Put(g3, 1, 1, ExitWater);
    var g5: Grid := if h > 3 then Put(g4, 1, 3, Solid) else g4;
    var g6: Grid := if h > 5 && w > 2 then Put(g5, 2, 5, Solid) else g5;
    assert g6 == Place(g, w, h);
    forall r, c | 0 <= r < h && 0 <= c < w
      ensures g6[r][c].tileType ==
                (if FixedAt(w, h, c, r).Some? then FixedAt(w, h, c, r).value else g[r][c].tileType)
    {
      var t1 := if c == 2 && r == h - 2 then Fire else g[r][c].tileType;
      assert g1[r][c].tileType == t1;
      var t2 := if c == w - 3 && r == h - 3 then Water else t1;
      assert g2[r][c].tileType == t2;
      var t3 := if c == w - 2 && r == 1 then ExitFire else t2;
      assert g3[r][c].tileType == t3;
      var t4 := if c == 1 && r == 1 then ExitWater else t3;
      assert g4[r][c].tileType == t4;
      var t5 := if h > 3 && c == 1 && r == 3 then Solid else t4;
      assert g5[r][c].tileType == t5;
      var t6 := if h > 5 && w > 2 && c == 2 && r == 5 then Solid else t5;
      assert g6[r][c].tileType == t6;
    }
  }

  /** The whole generation: reset to Empty, walk, then the fixed writes. */
  function Generate(w: int, h: int, draws: seq<int>): (g: Grid)
    requires 3 <= w && 3 <= h && DrawsFit(draws, w)
    ensures WellFormed(g, w, h)
  {
    Place(Walk(Uniform(w, h, Empty), w, h, draws, 0, 1, h - 2), w, h)
  }

  predicate IsSolid(g: Grid, c: int, r: int)
    requires 0 <= r < |g| && 0 <= c < |g[r]|
  {
    g[r][c].tileType == Solid
  }

  /**
   * What the walk leaves behind: every cell Empty or Solid, Solid only in
   * columns 1..w-2 and rows 1..h-2, and an ascending staircase: a Solid tile
   * to the right of (or in the same column as) another is never lower, so a
   * column holds at most one Solid tile.
   */
  predicate Staircase(g: Grid, w: int, h: int)
    requires WellFormed(g, w, h)
  {
    && (forall r, c :: 0 <= r < h && 0 <= c < w ==> g[r][c].tileType == Empty || IsSolid(g, c, r))
    && (forall r, c :: 0 <= r < h && 0 <= c < w && IsSolid(g, c, r) ==> 1 <= c <= w - 2 && 1 <= r <= h - 2)
    && (forall r1, c1, r2, c2 ::
          (0 <= r1 < h && 0 <= c1 < w && 0 <= r2 < h && 0 <= c2 < w &&
           IsSolid(g, c1, r1) && IsSolid(g, c2, r2) && c1 <= c2) ==> r2 <= r1)
  }

  /** The walk's state at cursor `c` and row `row`: a staircase lying left of c and no higher than row. */
  predicate WalkedSoFar(g: Grid, w: int, h: int, c: int, row: int)
    requires WellFormed(g, w, h)
  {
    && Staircase(g, w, h)
    && forall r, c' :: 0 <= r < h && 0 <= c' < w && IsSolid(g, c', r) ==> c' < c && row <= r
  }

  /** Laying a platform keeps the staircase, and keeps every Solid tile. */
  lemma {:induction false} LayKeepsStaircase(g: Grid, w: int, h: int, row: int, c: int, k: int)
    requires WellFormed(g, w, h) && 1 <= row <= h - 2 && 1 <= c
    requires WalkedSoFar(g, w, h, c, row)
    ensures WalkedSoFar(Lay(g, w, row, c, k).0, w, h, Lay(g, w, row, c, k).1, row)
    ensures forall r, c' :: 0 <= r < h && 0 <= c' < w && IsSolid(g, c', r) ==> IsSolid(Lay(g, w, row, c, k).0, c', r)
    ensures 0 < k && c < w - 1 ==> IsSolid(Lay(g, w, row, c, k).0, c, row)
    decreases k
  {
    if k <= 0 || c >= w - 1 {
    } else {
      var g' := Put(g, c, row, Solid);
      assert WalkedSoFar(g', w, h, c + 1, row) by {
        forall r1, c1, r2, c2 |
          0 <= r1 < h && 0 <= c1 < w && 0 <= r2 < h && 0 <= c2 < w &&
          IsSolid(g', c1, r1) && IsSolid(g', c2, r2) && c1 <= c2
          ensures r2 <= r1
        {
          if (r1, c1) != (row, c) && (r2, c2) != (row, c) {
            assert IsSolid(g, c1, r1) && IsSolid(g, c2, r2);
          } else if (r1, c1) != (row, c) {
            assert IsSolid(g, c1, r1);
          } else if (r2, c2) != (row, c) {
            assert IsSolid(g, c2, r2);
          }
        }
        forall r, c' | 0 <= r < h && 0 <= c' < w && IsSolid(g', c', r)
          ensures c' < c + 1 && row <= r
          ensures 1 <= c' <= w - 2 && 1 <= r <= h - 2
        {
          if (r, c') != (row, c) {
            assert IsSolid(g, c', r);
          }
        }
        forall r, c' | 0 <= r < h && 0 <= c' < w
          ensures g'[r][c'].tileType == Empty || IsSolid(g', c', r)
        {
          if (r, c') != (row, c) {
            assert g'[r][c'] == g[r][c'];
          }
        }
      }
      LayKeepsStaircase(g', w, h, row, c + 1, k - 1);
    }
  }

  /** The whole walk leaves a staircase, keeps every Solid tile, and lays its first tile at (c, row). */
  lemma {:induction false} WalkKeepsStaircase(g: Grid, w: int, h: int, draws: seq<int>, next: nat, c: int, row: int)
    requires WellFormed(g, w, h) && DrawsFit(draws, w)
    requires 1 <= c && next + 1 <= c && 1 <= row <= h - 2
    requires WalkedSoFar(g, w, h, c, row)
    ensures Staircase(Walk(g, w, h, draws, next, c, row), w, h)
    ensures forall r, c' :: 0 <= r < h && 0 <= c' < w && IsSolid(g, c', r) ==>
              IsSolid(Walk(g, w, h, draws, next, c, row), c', r)
    ensures c < w - 1 ==> IsSolid(Walk(g, w, h, draws, next, c, row), c, row)
    decreases w - c
  {
    if c < w - 1 && row > 0 {
      var laid := Lay(g, w, row, c, draws[next]);
      var row' := if row > 1 then row - 1 else row;
      LayKeepsStaircase(g, w, h, row, c, draws[next]);
      var c' := laid.1 + draws[next + 1];
      assert WalkedSoFar(laid.0, w, h, c', row');
      WalkKeepsStaircase(laid.0, w, h, draws, next + 2, c', row');
    }
  }

  /**
   * The generated level: the fixed cells hold what the last write to them
   * put there; every other cell is Empty or a Solid step of an ascending
   * staircase inside columns 1..w-2 and rows 1..h-2.
   */
  lemma GenerateLayout(w: int, h: int, draws: seq<int>)
    requires 3 <= w && 3 <= h && DrawsFit(draws, w)
    ensures var g := Generate(w, h, draws);
      && WellFormed(g, w, h)
      && (forall r, c :: 0 <= r < h && 0 <= c < w && FixedAt(w, h, c, r).Some? ==>
            g[r][c].tileType == FixedAt(w, h, c, r).value)
      && (forall r, c :: 0 <= r < h && 0 <= c < w && FixedAt(w, h, c, r).None? ==>
            g[r][c].tileType == Empty || g[r][c].tileType == Solid)
      && (forall r, c :: 0 <= r < h && 0 <= c < w && FixedAt(w, h, c, r).None? && IsSolid(g, c, r) ==>
            1 <= c <= w - 2 && 1 <= r <= h - 2)
      && (forall r1, c1, r2, c2 ::
            (0 <= r1 < h && 0 <= c1 < w && 0 <= r2 < h && 0 <= c2 < w &&
             FixedAt(w, h, c1, r1).None? && FixedAt(w, h, c2, r2).None? &&
             IsSolid(g, c1, r1) && IsSolid(g, c2, r2) && c1 <= c2) ==> r2 <= r1)
  {
    var e := Uniform(w, h, Empty);
    var walked: Grid := Walk(e, w, h, draws, 0, 1, h - 2);
    WalkKeepsStaircase(e, w, h, draws, 0, 1, h - 2);
    var g: Grid := Generate(w, h, draws);
    assert g == Place(walked, w, h);
    PlaceOverwrites(walked, w, h);
    forall r: int, c: int | 0 <= r < h && 0 <= c < w && FixedAt(w, h, c, r).None?
      ensures g[r][c].tileType == walked[r][c].tileType
    {
    }
  }

  /**
   * Consequences of the write order: (1,1) always ends as ExitWater (it also
   * overwrites ExitFire when w = 3), and when h = 7 the Fire hazard at (2,5)
   * is overwritten by Solid.
   */
  lemma GenerateOverwrites(w: int, h: int, draws: seq<int>)
    requires 3 <= w && 3 <= h && DrawsFit(draws, w)
    ensures Generate(w, h, draws)[1][1] == Tile(ExitWater, 1, 1)
    ensures h == 7 ==> Generate(w, h, draws)[5][2] == Tile(Solid, 2, 5)
  {
    GenerateLayout(w, h, draws);
  }

  /**
   * The walk's first step is laid at (1, h-2), the cell whose corner is
   * Fireboy's respawn point; for h > 3 no fixed write replaces it, so that
   * cell is always Solid.
   */
  lemma FireRespawnCellIsSolid(w: int, h: int, draws: seq<int>)
    requires 3 <= w && 3 < h && DrawsFit(draws, w)
    ensures Generate(w, h, draws)[h - 2][1].tileType == Solid
  {
    var e := Uniform(w, h, Empty);
    WalkKeepsStaircase(e, w, h, draws, 0, 1, h - 2);
  }
}

=== FILE: Geometry.dfy ===
/**
 * The plain values the simulation passes around (sf::Vector2f and
 * sf::FloatRect, with floats modelled as exact reals), the rectangle overlap
 * test, and the C++ rounding rules used where a world coordinate becomes a
 * grid index.
 */
module Geometry {

  /** A vector in world units; y grows downwards. */
  datatype Vec2 = Vec2(x: real, y: real)

  /** An axis-aligned rectangle given by its top-left corner and its size. */
  datatype Rect = Rect(left: real, top: real, width: real, height: real)

  function Min(a: real, b: real): real { if a < b then a else b }

  function Max(a: real, b: real): real { if a < b then b else a }

  function IMin(a: int, b: int): int { if a < b then a else b }

  function IMax(a: int, b: int): int { if a < b then b else a }

  /**
   * sf::FloatRect::intersects: each rectangle is normalised (a negative size
   * extends to the left or upwards), the two are intersected, and they
   * intersect when the intersection has positive width and height. Rectangles
   * that only share an edge do not intersect.
   */
  predicate Intersects(a: Rect, b: Rect)
    ensures 0.0 < a.width && 0.0 < a.height && 0.0 < b.width && 0.0 < b.height ==>
              (Intersects(a, b) <==>
                 a.left < b.left + b.width && b.left < a.left + a.width &&
                 a.top < b.top + b.height && b.top < a.top + a.height)
  {
    var interLeft := Max(Min(a.left, a.left + a.width), Min(b.left, b.left + b.width));
    var interTop := Max(Min(a.top, a.top + a.height), Min(b.top, b.top + b.height));
    var interRight := Min(Max(a.left, a.left + a.width), Max(b.left, b.left + b.width));
    var interBottom := Min(Max(a.top, a.top + a.height), Max(b.top, b.top + b.height));
    interLeft < interRight && interTop < interBottom
  }

  /** static_cast<int> of a float: drops the fraction, rounding toward zero. */
  function Trunc(x: real): (n: int)
    ensures 0.0 <= x ==> 0 <= n && n as real <= x < n as real + 1.0
    ensures x < 0.0 ==> n <= 0 && n as real - 1.0 < x <= n as real
  {
    if 0.0 <= x then x.Floor else -((-x).Floor)
  }

  /** C++ integer division by a positive divisor, which rounds toward zero. */
  function DivToZero(a: int, d: int): (q: int)
    requires 0 < d
    ensures 0 <= a ==> 0 <= q && q * d <= a < q * d + d
    ensures a < 0 ==> q <= 0 && q * d - d < a <= q * d
  {
    if 0 <= a then a / d else -((-a) / d)
  }

  /**
   * Truncating a coordinate and then dividing the integer by 48 gives the
   * same index as dividing the coordinate by 48 and then truncating; the
   * collision scan uses both forms.
   */
  lemma TruncThenDivide(x: real)
    ensures DivToZero(Trunc(x), 48) == Trunc(x / 48.0)
  {
    var n := Trunc(x);
    var q := DivToZero(n, 48);
    var m := Trunc(x / 48.0);
    if 0.0 <= x {
      assert q as real * 48.0 <= x;
      assert (m * 48) as real <= x;
      assert m * 48 <= n;
    } else {
      assert x <= q as real * 48.0;
      assert x <= (m * 48) as real;
      assert n <= m * 48;
    }
  }

  /**
   * Truncation agrees with flooring on non-negative values only: every value
   * strictly between -1 and 0 truncates to 0 where flooring gives -1.
   */
  lemma TruncVersusFloor(x: real)
    ensures 0.0 <= x ==> Trunc(x) == x.Floor
    ensures -1.0 < x < 0.0 ==> Trunc(x) == 0 && x.Floor == -1
  {
  }
}

=== FILE: Grids.dfy ===
/**
 * The state of a Map (its dimensions and its row-major grid of tiles) and the
 * pure queries on it: tile lookup by grid index and by world coordinate, the
 * world rectangle, and the two respawn points.
 */
module Grids {
  import opened Geometry
  import opened Tiles

  /** Row-major storage: grid[row][col]. */
  type Grid = seq<seq<Tile>>

  /** `h` rows of `w` tiles, each tile recording its own column and row. */
  predicate WellFormed(g: Grid, w: int, h: int) {
    && |g| == h
    && (forall r :: 0 <= r < h ==> |g[r]| == w)
    && (forall r, c :: 0 <= r < h && 0 <= c < w ==> g[r][c].col == c && g[r][c].row == r)
  }

  /** The simulation-relevant fields of a Map. */
  datatype MapState = MapState(width: int, height: int, grid: Grid) {
    predicate Valid() {
      0 <= width && 0 <= height && WellFormed(grid, width, height)
    }
  }

  /** A `w` by `h` grid whose every cell is a tile of type `t` at its own place. */
  function Uniform(w: nat, h: nat, t: TileType): (g: Grid)
    ensures WellFormed(g, w, h)
    ensures forall r, c :: 0 <= r < h && 0 <= c < w ==> g[r][c] == Tile(t, c, r)
  {
    seq(h, r => seq(w, c => Tile(t, c, r)))
  }

  /** The write grid[r][c] = Tile(t, c, r). */
  function Put(g: Grid, c: int, r: int, t: TileType): (g': Grid)
    requires 0 <= r < |g| && 0 <= c < |g[r]|
    ensures |g'| == |g| && (forall i :: 0 <= i < |g| ==> |g'[i]| == |g[i]|)
    ensures g'[r][c] == Tile(t, c, r)
    ensures forall i, j :: 0 <= i < |g| && 0 <= j < |g[i]| && (i != r || j != c) ==> g'[i][j] == g[i][j]
  {
    g[r := g[r][c := Tile(t, c, r)]]
  }

  /** A write of a tile at its own place keeps the grid well formed. */
  lemma PutKeepsWellFormed(g: Grid, w: int, h: int, c: int, r: int, t: TileType)
    requires WellFormed(g, w, h) && 0 <= c < w && 0 <= r < h
    ensures WellFormed(Put(g, c, r, t), w, h)
  {
  }

  /** Two grids of the same shape that agree on every cell are equal. */
  lemma SameCells(a: Grid, b: Grid, w: int, h: int)
    requires |a| == h && |b| == h
    requires forall r :: 0 <= r < h ==> |a[r]| == w && |b[r]| == w
    requires forall r, c :: 0 <= r < h && 0 <= c < w ==> a[r][c] == b[r][c]
    ensures a == b
  {
    forall r | 0 <= r < h
      ensures a[r] == b[r]
    {
      assert |a[r]| == |b[r]|;
      forall c | 0 <= c < w
        ensures a[r][c] == b[r][c]
      {
      }
    }
  }

  /** Map::getTileTypeAtGrid: Solid outside the grid, the stored type inside it. */
  function TypeAtGrid(m: MapState, col: int, row: int): (t: TileType)
    requires m.Valid()
    ensures !(0 <= col < m.width && 0 <= row < m.height) ==> t == Solid
    ensures 0 <= col < m.width && 0 <= row < m.height ==> t == m.grid[row][col].tileType
  {
    if col < 0 || col >= m.width || row < 0 || row >= m.height then Solid
    else m.grid[row][col].tileType
  }

  /** Map::getTileTypeAtWorld: the grid index is the coordinate over 48, truncated. */
  function TypeAtWorld(m: MapState, x: real, y: real): (t: TileType)
    requires m.Valid()
  {
    var col := Trunc(x / TileSide);
    var row := Trunc(y / TileSide);
    TypeAtGrid(m, col, row)
  }

  /**
   * For non-negative coordinates the truncating lookup is the floor lookup.
   * A point up to one tile left of the world maps to column 0, not to the
   * out-of-range column -1 that a floor lookup would report as Solid.
   */
  lemma TypeAtWorldTruncates(m: MapState, x: real, y: real)
    requires m.Valid()
    ensures 0.0 <= x && 0.0 <= y ==>
              TypeAtWorld(m, x, y) == TypeAtGrid(m, (x / TileSide).Floor, (y / TileSide).Floor)
    ensures -TileSide < x < 0.0 ==>
              TypeAtWorld(m, x, y) == TypeAtWorld(m, 0.0, y) &&
              TypeAtGrid(m, (x / TileSide).Floor, Trunc(y / TileSide)) == Solid
  {
    TruncVersusFloor(x / TileSide);
    TruncVersusFloor(y / TileSide);
  }

  /** Map::worldBounds: the rectangle the grid covers, from the origin. */
  function WorldBounds(m: MapState): (b: Rect)
    ensures b.left == 0.0 && b.top == 0.0
    ensures b.width == (m.width * TileSize) as real && b.height == (m.height * TileSize) as real
  {
    Rect(0.0, 0.0, (m.width * TileSize) as real, (m.height * TileSize) as real)
  }

  /**
   * A point with non-negative coordinates lies inside the world rectangle
   * exactly when its truncated grid index is inside the grid.
   */
  lemma WorldBoundsCoverGrid(m: MapState, x: real, y: real)
    requires m.Valid() && 0.0 <= x && 0.0 <= y
    ensures x < WorldBounds(m).width && y < WorldBounds(m).height <==>
              0 <= Trunc(x / TileSide) < m.width && 0 <= Trunc(y / TileSide) < m.height
  {
    var col, row := Trunc(x / TileSide), Trunc(y / TileSide);
    assert (col * TileSize) as real <= x < (col * TileSize + TileSize) as real;
    assert (row * TileSize) as real <= y < (row * TileSize + TileSize) as real;
  }

  /** Map::respawnWorldPosForFire: the top-left corner of cell (1, height-2). */
  function RespawnWorldPosForFire(m: MapState): (p: Vec2)
    ensures p.x == (1 * TileSize) as real && p.y == (TileSize * (m.height - 2)) as real
  {
    Vec2(TileSide * 1.0, (TileSize * (m.height - 2)) as real)
  }

  /** Map::respawnWorldPosForWater: the top-left corner of cell (5, height-2). */
  function RespawnWorldPosForWater(m: MapState): (p: Vec2)
    ensures p.x == (5 * TileSize) as real && p.y == (TileSize * (m.height - 2)) as real
  {
    Vec2(TileSide * 5.0, (TileSize * (m.height - 2)) as real)
  }

  /** Each respawn point looks up the cell it is the corner of. */
  lemma RespawnCells(m: MapState)
    requires m.Valid()
    ensures TypeAtWorld(m, RespawnWorldPosForFire(m).x, RespawnWorldPosForFire(m).y)
              == TypeAtGrid(m, 1, m.height - 2)
    ensures TypeAtWorld(m, RespawnWorldPosForWater(m).x, RespawnWorldPosForWater(m).y)
              == TypeAtGrid(m, 5, m.height - 2)
  {
    var y := RespawnWorldPosForFire(m).y;
    assert y / TileSide == (m.height - 2) as real;
  }
}

=== FILE: Kinematics.dfy ===
/**
 * The simulation state of one character and every operation on it, as
 * functions on values: the character methods are proved against these, and
 * the frame-level rules are stated with them.
 */
module Kinematics {
  import opened Geometry
  import opened Tiles

  /** Element affinity; fixed for a character by its kind. */
  datatype Element = Fire | Water | Neutral

  /** Horizontal speed in units per second. */
  const Speed: real := 160.0
  /** Upward velocity given by a jump. */
  const JumpImpulse: real := 360.0
  /** Downward acceleration in units per second squared. */
  const Gravity: real := 900.0
  /** The longest integration sub-step, in seconds. */
  const MaxStep: real := 0.02
  /** Lives a character starts with unless told otherwise. */
  const DefaultLives: int := 3

  /** Position (top-left corner), velocity, remaining lives and ground contact. */
  datatype CharState = CharState(position: Vec2, velocity: Vec2, lives: int, onGround: bool)

  /** A new character: at rest at `pos`, airborne, with `lifeCount` lives. */
  function Spawned(pos: Vec2, lifeCount: int): (s: CharState)
    ensures s.position == pos && s.lives == lifeCount
    ensures s.velocity == Vec2(0.0, 0.0) && !s.onGround
  {
    CharState(pos, Vec2(0.0, 0.0), lifeCount, false)
  }

  /** The character's collision box: one tile, 48 by 48, at its position. */
  function Box(p: Vec2): (b: Rect)
    ensures b.left == p.x && b.top == p.y && b.width == TileSide && b.height == TileSide
  {
    Rect(p.x, p.y, TileSide, TileSide)
  }

  /** The invariant every operation keeps: a character on the ground does not move vertically. */
  predicate Resting(s: CharState) {
    s.onGround ==> s.velocity.y == 0.0
  }

  /** setOnGround: landing also stops vertical motion; leaving the ground keeps the velocity. */
  function SetOnGround(s: CharState, state: bool): (r: CharState)
    ensures r.onGround == state && Resting(r)
    ensures r.position == s.position && r.lives == s.lives && r.velocity.x == s.velocity.x
    ensures !state ==> r.velocity == s.velocity
  {
    var landed := s.(onGround := state);
    if state then landed.(velocity := landed.velocity.(y := 0.0)) else landed
  }

  /** setPosition: only the position changes. */
  function SetPosition(s: CharState, p: Vec2): (r: CharState)
    ensures r.position == p && r.velocity == s.velocity && r.lives == s.lives && r.onGround == s.onGround
    ensures Resting(s) ==> Resting(r)
  {
    s.(position := p)
  }

  /** stopVerticalMovement: only the vertical velocity changes, to zero. */
  function StopVerticalMovement(s: CharState): (r: CharState)
    ensures r.velocity == Vec2(s.velocity.x, 0.0) && Resting(r)
    ensures r.position == s.position && r.lives == s.lives && r.onGround == s.onGround
  {
    s.(velocity := s.velocity.(y := 0.0))
  }

  /** moveLeft: a direct horizontal displacement, not collision-checked. */
  function MoveLeft(s: CharState, dt: real): (r: CharState)
    ensures r.position == Vec2(s.position.x - Speed * dt, s.position.y)
    ensures r.velocity == s.velocity && r.lives == s.lives && r.onGround == s.onGround
  {
    s.(position := s.position.(x := s.position.x - Speed * dt))
  }

  /** moveRight: a direct horizontal displacement, not collision-checked. */
  function MoveRight(s: CharState, dt: real): (r: CharState)
    ensures r.position == Vec2(s.position.x + Speed * dt, s.position.y)
    ensures r.velocity == s.velocity && r.lives == s.lives && r.onGround == s.onGround
  {
    s.(position := s.position.(x := s.position.x + Speed * dt))
  }

  /** Moving right for as long as one moved left undoes it, and the other way round. */
  lemma MovesUndoEachOther(s: CharState, dt: real)
    ensures MoveRight(MoveLeft(s, dt), dt) == s
    ensures MoveLeft(MoveRight(s, dt), dt) == s
  {
  }

  /** jump: only from the ground; in the air it changes nothing (no double jump). */
  function Jump(s: CharState): (r: CharState)
    ensures s.onGround ==> r == s.(velocity := Vec2(s.velocity.x, -JumpImpulse), onGround := false)
    ensures !s.onGround ==> r == s
    ensures Resting(s) ==> Resting(r)
  {
    if s.onGround then s.(velocity := s.velocity.(y := -JumpImpulse), onGround := false) else s
  }

  /** The life count after one hit: one less, unless none are left. */
  function LifeAfterHit(lives: int): int {
    if lives > 0 then lives - 1 else lives
  }

  /**
   * takeDamageAndRespawn: one life is lost unless none are left, and the
   * character reappears at `pos`, at rest and airborne.
   */
  function TakeDamageAndRespawn(s: CharState, pos: Vec2): (r: CharState)
    ensures r.position == pos && r.velocity == Vec2(0.0, 0.0) && !r.onGround
    ensures 0 < s.lives ==> r.lives == s.lives - 1
    ensures s.lives <= 0 ==> r.lives == s.lives
    ensures 0 <= s.lives ==> 0 <= r.lives <= s.lives
  {
    CharState(pos, Vec2(0.0, 0.0), LifeAfterHit(s.lives), false)
  }

  /** Gravity (only when airborne), then the position advances with the new velocity. */
  function Advance(s: CharState, step: real): (r: CharState)
    ensures r.velocity.x == s.velocity.x && r.lives == s.lives && r.onGround == s.onGround
    ensures r.velocity.y == s.velocity.y + (if s.onGround then 0.0 else Gravity * step)
    ensures r.position == Vec2(s.position.x + r.velocity.x * step, s.position.y + r.velocity.y * step)
  {
    var vy := if s.onGround then s.velocity.y else s.velocity.y + Gravity * step;
    CharState(Vec2(s.position.x + s.velocity.x * step, s.position.y + vy * step), Vec2(s.velocity.x, vy), s.lives, s.onGround)
  }

  /**
   * One sub-step of Character::update: advance, then clamp to the world. A
   * box reaching below the floor is put on the floor, stopped and grounded;
   * otherwise the character is airborne. The left wall is applied, then the
   * right wall, so in a world narrower than a tile the right wall wins.
   */
  function SubStep(s: CharState, step: real, world: Rect): (r: CharState)
    ensures r.onGround <==> Advance(s, step).position.y + TileSide > world.top + world.height
    ensures r.onGround ==> r.velocity.y == 0.0 && r.position.y + TileSide == world.top + world.height
    ensures !r.onGround ==> r.velocity.y == Advance(s, step).velocity.y && r.position.y == Advance(s, step).position.y
    ensures r.position.y + TileSide <= world.top + world.height
    ensures r.position.x + TileSide <= world.left + world.width
    ensures TileSide <= world.width ==> world.left <= r.position.x
    ensures r.velocity.x == s.velocity.x && r.lives == s.lives
  {
    var a := Advance(s, step);
    var bottom := world.top + world.height;
    var floored :=
      if a.position.y + TileSide > bottom
      then a.(position := a.position.(y := bottom - TileSide), velocity := a.velocity.(y := 0.0), onGround := true)
      else a.(onGround := false);
    var x1 := if floored.position.x < world.left then world.left else floored.position.x;
    var x2 := if x1 + TileSide > world.left + world.width then world.left + world.width - TileSide else x1;
    floored.(position := floored.position.(x := x2))
  }

  /** How many sub-steps are left with `remaining` seconds to integrate. */
  function StepsLeft(remaining: real): nat {
    if remaining <= 0.0 then 0 else (remaining / MaxStep).Floor + 1
  }

  /**
   * Character::update as a function: sub-steps of min(remaining, MaxStep)
   * until the time is used up. Lives and horizontal velocity never change;
   * with no time to integrate nothing changes; otherwise the result is the
   * last sub-step's (LastSubStep), so it obeys the floor and wall clamps,
   * and a grounded result stands on the floor with no vertical velocity.
   */
  function Integrate(s: CharState, dt: real, world: Rect): (r: CharState)
    ensures r.lives == s.lives && r.velocity.x == s.velocity.x
    ensures dt <= 0.0 ==> r == s
    ensures 0.0 < dt ==> r.position.y + TileSide <= world.top + world.height
    ensures 0.0 < dt ==> r.position.x + TileSide <= world.left + world.width
    ensures 0.0 < dt && TileSide <= world.width ==> world.left <= r.position.x
    ensures 0.0 < dt && r.onGround ==> r.velocity.y == 0.0 && r.position.y + TileSide == world.top + world.height
    ensures Resting(s) ==> Resting(r)
    decreases StepsLeft(dt)
  {
    if dt <= 0.0 then s
    else
      var step := if MaxStep < dt then MaxStep else dt;
      Integrate(SubStep(s, step, world), dt - step, world)
  }

  /**
   * The state a positive integration starts its last sub-step from, and
   * that sub-step's length: no longer than MaxStep, and the result of the
   * whole integration is that sub-step's.
   */
  function LastSubStep(s: CharState, dt: real, world: Rect): (last: (CharState, real))
    requires 0.0 < dt
    ensures 0.0 < last.1 <= MaxStep
    ensures Integrate(s, dt, world) == SubStep(last.0, last.1, world)
    decreases StepsLeft(dt)
  {
    var step := if MaxStep < dt then MaxStep else dt;
    if dt - step <= 0.0 then (s, step)
    else LastSubStep(SubStep(s, step, world), dt - step, world)
  }

  /**
   * After a positive update the character is grounded exactly when the
   * last sub-step's advanced box passed the floor, and then it stands on
   * the floor at rest; otherwise it keeps that sub-step's vertical motion.
   */
  lemma IntegrateGrounding(s: CharState, dt: real, world: Rect)
    requires 0.0 < dt
    ensures var last := LastSubStep(s, dt, world);
            var a := Advance(last.0, last.1);
            (Integrate(s, dt, world).onGround <==> a.position.y + TileSide > world.top + world.height)
            && (!Integrate(s, dt, world).onGround ==>
                  Integrate(s, dt, world).velocity.y == a.velocity.y && Integrate(s, dt, world).position.y == a.position.y)
  {
  }

  /**
   * Integrating for a whole number of sub-steps and then for the rest gives
   * the same state as integrating for the total at once.
   */
  lemma {:induction false} IntegrateSplits(s: CharState, n: nat, rest: real, world: Rect)
    requires 0.0 <= rest
    ensures Integrate(s, n as real * MaxStep + rest, world)
              == Integrate(Integrate(s, n as real * MaxStep, world), rest, world)
    decreases n
  {
    if n == 0 {
      assert Integrate(s, 0.0, world) == s;
    } else {
      var s' := SubStep(s, MaxStep, world);
      var m := (n - 1) as real * MaxStep;
      assert n as real * MaxStep == m + MaxStep;
      if m + rest == 0.0 {
        assert Integrate(s, n as real * MaxStep + rest, world) == Integrate(s', 0.0, world);
      } else {
        assert Integrate(s, n as real * MaxStep + rest, world) == Integrate(s', m + rest, world);
      }
      assert Integrate(s, n as real * MaxStep, world) == Integrate(s', m, world);
      IntegrateSplits(s', n - 1, rest, world);
    }
  }

  /**
   * A 0.05 s frame integrates exactly like frames of 0.02, 0.02 and 0.01 s
   * in a row (exact arithmetic).
   */
  lemma SubSteppingEquivalence(s: CharState, world: Rect)
    ensures Integrate(s, 0.05, world)
              == Integrate(Integrate(Integrate(s, 0.02, world), 0.02, world), 0.01, world)
  {
    IntegrateSplits(s, 1, 0.03, world);
    IntegrateSplits(Integrate(s, 0.02, world), 1, 0.01, world);
  }
}

=== FILE: Maps.dfy ===
/**
 * The Map object: a row-major grid of tiles with its width and height,
 * rebuilt in place by allocation, copying and level generation.
 */
module Maps {
  import opened Tiles
  import opened Grids
  import opened Generation

  class Map {
    var grid: Grid
    var width: int
    var height: int

    /** The simulation-relevant state of this map, for the pure queries. */
    function View(): MapState
      reads this
    {
      MapState(width, height, grid)
    }

    ghost predicate Valid()
      reads this
    {
      View().Valid()
    }

    /** Map(w, h, defaultType): a w by h grid of `defaultType` tiles; 12 by 8 of Empty by default. */
    constructor (w: nat := 12, h: nat := 8, defaultType: TileType := Empty)
      ensures Valid() && width == w && height == h
      ensures forall r, c :: 0 <= r < h && 0 <= c < w ==> grid[r][c] == Tile(defaultType, c, r)
    {
      grid, width, height := [], 0, 0;
      new;
      AllocateGrid(w, h, defaultType);
    }

    /**
     * Sets the dimensions, fills the grid with copies of one default tile,
     * then rewrites every cell with a tile that knows its own column and row.
     */
    method AllocateGrid(w: nat, h: nat, defaultType: TileType)
      modifies this
      ensures Valid() && width == w && height == h
      ensures forall r, c :: 0 <= r < h && 0 <= c < w ==> grid[r][c] == Tile(defaultType, c, r)
    {
      width, height := w, h;
      grid := seq(h, _ => seq(w, _ => Tile(defaultType, 0, 0)));
      var r := 0;
      while r < height
        invariant 0 <= r <= height && width == w && height == h
        invariant |grid| == h && forall i :: 0 <= i < h ==> |grid[i]| == w
        invariant forall i, j :: 0 <= i < r && 0 <= j < w ==> grid[i][j] == Tile(defaultType, j, i)
        invariant forall i, j :: r <= i < h && 0 <= j < w ==> grid[i][j] == Tile(defaultType, 0, 0)
      {
        var c := 0;
        while c < width
          invariant 0 <= c <= width && width == w && height == h
          invariant |grid| == h && forall i :: 0 <= i < h ==> |grid[i]| == w
          invariant forall i, j :: 0 <= i < r && 0 <= j < w ==> grid[i][j] == Tile(defaultType, j, i)
          invariant forall j :: 0 <= j < c ==> grid[r][j] == Tile(defaultType, j, r)
          invariant forall j :: c <= j < w ==> grid[r][j] == Tile(defaultType, 0, 0)
          invariant forall i, j :: r < i < h && 0 <= j < w ==> grid[i][j] == Tile(defaultType, 0, 0)
        {
          grid := grid[r := grid[r][c := Tile(defaultType, c, r)]];
          c := c + 1;
        }
        r := r + 1;
      }
    }

    /** The copy constructor: copies the dimensions and every tile, row by row. */
    constructor Copy(other: Map)
      requires other.Valid()
      ensures View() == other.View()
    {
      var w, h := other.width, other.height;
      var rows: Grid := [];
      var r := 0;
      while r < h
        invariant 0 <= r <= h && rows == other.grid[..r]
      {
        var row: seq<Tile> := [];
        var c := 0;
        while c < w
          invariant 0 <= c <= w && row == other.grid[r][..c]
        {
          row := row + [other.grid[r][c]];
          c := c + 1;
        }
        assert row == other.grid[r];
        assert other.grid[..r + 1] == other.grid[..r] + [other.grid[r]];
        rows := rows + [row];
        r := r + 1;
      }
      assert rows == other.grid;
      width, height, grid := w, h, rows;
    }

    /** Copy assignment: a no-op on self-assignment, otherwise a copy as above. */
    method Assign(other: Map)
      requires other.Valid()
      modifies this
      ensures View() == old(other.View())
    {
      if this == other {
        return;
      }
      width := other.width;
      height := other.height;
      var rows: Grid := [];
      var r := 0;
      while r < height
        invariant 0 <= r <= height && width == old(other.width) && height == old(other.height)
        invariant other.grid == old(other.grid) && other.width == old(other.width)
        invariant rows == other.grid[..r]
      {
        var row: seq<Tile> := [];
        var c := 0;
        while c < width
          invariant 0 <= c <= width && row == other.grid[r][..c]
        {
          row := row + [other.grid[r][c]];
          c := c + 1;
        }
        assert row == other.grid[r];
        assert other.grid[..r + 1] == other.grid[..r] + [other.grid[r]];
        rows := rows + [row];
        r := r + 1;
      }
      assert rows == other.grid;
      grid := rows;
    }

    /**
     * Map::generateAscendingPlatforms, with the random source replaced by
     * `draws`: resets every cell to Empty, walks the ascending platforms, then
     * makes the fixed hazard, exit and Solid writes. The dimensions do not
     * change, and the grid is the one Generate describes.
     */
    method GenerateAscendingPlatforms(draws: seq<int>)
      requires Valid() && 3 <= width && 3 <= height && DrawsFit(draws, width)
      modifies this
      ensures Valid() && width == old(width) && height == old(height)
      ensures grid == Generate(width, height, draws)
    {
      ClearToEmpty();
      WalkPlatforms(draws);
      ghost var laid := grid;
      PutKeepsWellFormed(grid, width, height, 2, height - 2, Fire);
      grid := grid[height - 2 := grid[height - 2][2 := Tile(Fire, 2, height - 2)]];
      PutKeepsWellFormed(grid, width, height, width - 3, height - 3, Water);
      grid := grid[height - 3 := grid[height - 3][width - 3 := Tile(Water, width - 3, height - 3)]];
      PutKeepsWellFormed(grid, width, height, width - 2, 1, ExitFire);
      grid := grid[1 := grid[1][width - 2 := Tile(ExitFire, width - 2, 1)]];
      PutKeepsWellFormed(grid, width, height, 1, 1, ExitWater);
      grid := grid[1 := grid[1][1 := Tile(ExitWater, 1, 1)]];
      if height > 3 {
        PutKeepsWellFormed(grid, width, height, 1, 3, Solid);
        grid := grid[3 := grid[3][1 := Tile(Solid, 1, 3)]];
      }
      if height > 5 && width > 2 {
        PutKeepsWellFormed(grid, width, height, 2, 5, Solid);
        grid := grid[5 := grid[5][2 := Tile(Solid, 2, 5)]];
      }
      assert grid == Place(laid, width, height);
    }

    /** The first step of generation: every cell becomes an Empty tile at its own place. */
    method ClearToEmpty()
      requires Valid()
      modifies this
      ensures width == old(width) && height == old(height)
      ensures grid == Uniform(width, height, Empty)
    {
      var r := 0;
      while r < height
        invariant width == old(width) && height == old(height)
        invariant 0 <= r <= height && |grid| == height && forall i :: 0 <= i < height ==> |grid[i]| == width
        invariant forall i, j :: 0 <= i < r && 0 <= j < width ==> grid[i][j] == Tile(Empty, j, i)
      {
        var c := 0;
        while c < width
          invariant width == old(width) && height == old(height)
          invariant 0 <= c <= width && |grid| == height && forall i :: 0 <= i < height ==> |grid[i]| == width
          invariant forall i, j :: 0 <= i < r && 0 <= j < width ==> grid[i][j] == Tile(Empty, j, i)
          invariant forall j :: 0 <= j < c ==> grid[r][j] == Tile(Empty, j, r)
        {
          grid := grid[r := grid[r][c := Tile(Empty, c, r)]];
          c := c + 1;
        }
        r := r + 1;
      }
      SameCells(grid, Uniform(width, height, Empty), width, height);
    }

    /**
     * One platform: Solid tiles on `row` from column `c` on, `len` of them
     * or up to column width-2, whichever comes first. Returns the column
     * after the last tile laid.
     */
    method LayPlatform(row: int, c: int, len: int) returns (c': int)
      requires WellFormed(grid, width, height) && 0 <= row < height && 0 <= c
      modifies this
      ensures width == old(width) && height == old(height)
      ensures (grid, c') == Lay(old(grid), width, row, c, len)
    {
      c' := c;
      var k := 0;
      while k < len && c' < width - 1
        invariant width == old(width) && height == old(height)
        invariant c <= c' && WellFormed(grid, width, height)
        invariant Lay(grid, width, row, c', len - k) == Lay(old(grid), width, row, c, len)
      {
        PutKeepsWellFormed(grid, width, height, c', row, Solid);
        grid := grid[row := grid[row][c' := Tile(Solid, c', row)]];
        c' := c' + 1;
        k := k + 1;
      }
    }

    /**
     * The platform walk: from column 1 and row height-2, lay a platform of
     * draws[next] tiles (stopping before column width-1), skip a gap of
     * draws[next+1] columns, and move one row up while above row 1.
     */
    method WalkPlatforms(draws: seq<int>)
      requires WellFormed(grid, width, height) && 3 <= width && 3 <= height && DrawsFit(draws, width)
      modifies this
      ensures width == old(width) && height == old(height)
      ensures grid == Walk(old(grid), width, height, draws, 0, 1, height - 2)
    {
      var currentRow := height - 2;
      var c := 1;
      var next := 0;
      while c < width - 1 && currentRow > 0
        invariant width == old(width) && height == old(height)
        invariant WellFormed(grid, width, height)
        invariant 1 <= c && next + 1 <= c && currentRow <= height - 2
        invariant Walk(grid, width, height, draws, next, c, currentRow)
                    == Walk(old(grid), width, height, draws, 0, 1, height - 2)
        decreases width - c
      {
        WalkStep(grid, width, height, draws, next, c, currentRow);
        c := LayPlatform(currentRow, c, draws[next]);
        var gap := draws[next + 1];
        next := next + 2;
        c := c + gap;
        if currentRow > 1 {
          currentRow := currentRow - 1;
        }
      }
    }
  }
}

=== FILE: Options.dfy ===
/** The usual optional value, used where a lookup may find nothing. */
module Options {

  datatype Option<+T> = None | Some(value: T)

}

=== FILE: Simulation.dfy ===
/**
 * One frame of the game as a function on values: input, physics for both
 * characters, collision passes and the win rule; a session is a sequence
 * of frames. The Game class is proved against these functions.
 */
module Simulation {
  import opened Geometry
  import opened Tiles
  import opened Grids
  import opened Generation
  import opened Kinematics
  import opened Collisions

  /** Which keys are held this frame: A, D, W steer Fireboy and F, H, T steer Watergirl. */
  datatype Intents = Intents(fireLeft: bool, fireRight: bool, fireJump: bool,
                             waterLeft: bool, waterRight: bool, waterJump: bool)

  /** One frame of a session: the elapsed time reported by the clock, and the keys held. */
  datatype Tick = Tick(dt: real, keys: Intents)

  datatype GameState = GameState(level: MapState, fireboy: CharState, watergirl: CharState,
                                 fireboyAtExit: bool, watergirlAtExit: bool, won: bool)

  /** What every frame keeps: a well-formed map, no negative lives, grounded characters at rest, a win only with both at their exits. */
  predicate Inv(g: GameState) {
    g.level.Valid()
    && 0 <= g.fireboy.lives && 0 <= g.watergirl.lives
    && Resting(g.fireboy) && Resting(g.watergirl)
    && (g.won ==> g.fireboyAtExit && g.watergirlAtExit)
  }

  /**
   * One character's input: move left, then move right, then jump. Both
   * horizontal keys together cancel out; the jump only takes effect from
   * the ground.
   */
  function Steer(s: CharState, left: bool, right: bool, jump: bool, dt: real): (s': CharState)
    ensures s'.position.x == s.position.x - (if left then Speed * dt else 0.0) + (if right then Speed * dt else 0.0)
    ensures s'.position.y == s.position.y && s'.lives == s.lives && s'.velocity.x == s.velocity.x
    ensures jump && s.onGround ==> s'.velocity.y == -JumpImpulse && !s'.onGround
    ensures !(jump && s.onGround) ==> s'.velocity == s.velocity && s'.onGround == s.onGround
    ensures Resting(s) ==> Resting(s')
  {
    var a := if left then MoveLeft(s, dt) else s;
    var b := if right then MoveRight(a, dt) else a;
    if jump then Jump(b) else b
  }

  /** Game::processInput: after a win the keys are ignored; the map and the exit flags never change. */
  function ProcessInput(g: GameState, dt: real, keys: Intents): (g': GameState)
    ensures g.won ==> g' == g
    ensures !g.won ==> g'.fireboy == Steer(g.fireboy, keys.fireLeft, keys.fireRight, keys.fireJump, dt)
    ensures !g.won ==> g'.watergirl == Steer(g.watergirl, keys.waterLeft, keys.waterRight, keys.waterJump, dt)
    ensures g'.level == g.level && g'.won == g.won
    ensures g'.fireboyAtExit == g.fireboyAtExit && g'.watergirlAtExit == g.watergirlAtExit
    ensures Inv(g) ==> Inv(g')
  {
    if g.won then g
    else
      g.(fireboy := Steer(g.fireboy, keys.fireLeft, keys.fireRight, keys.fireJump, dt),
         watergirl := Steer(g.watergirl, keys.waterLeft, keys.waterRight, keys.waterJump, dt))
  }

  /**
   * Game::update: nothing moves after a win; otherwise both characters are
   * integrated within the world bounds, Fireboy's collision pass runs, then
   * Watergirl's, and the game is won once both exit flags are set.
   */
  function Update(g: GameState, dt: real): (g': GameState)
    requires g.level.Valid()
    ensures g.won ==> g' == g
    ensures !g.won ==> (g'.won <==> g'.fireboyAtExit && g'.watergirlAtExit)
    ensures g'.level == g.level
    ensures Inv(g) ==> Inv(g')
    ensures g'.fireboy.lives == g.fireboy.lives || g'.fireboy.lives == g.fireboy.lives - 1
    ensures g'.watergirl.lives == g.watergirl.lives || g'.watergirl.lives == g.watergirl.lives - 1
    ensures g.fireboyAtExit && !g'.fireboyAtExit ==>
              g'.fireboy == Spawned(RespawnWorldPosForFire(g.level), LifeAfterHit(g.fireboy.lives))
    ensures g.watergirlAtExit && !g'.watergirlAtExit ==>
              g'.watergirl == Spawned(RespawnWorldPosForWater(g.level), LifeAfterHit(g.watergirl.lives))
  {
    if g.won then g
    else
      var world := WorldBounds(g.level);
      var f := Integrate(g.fireboy, dt, world);
      var w := Integrate(g.watergirl, dt, world);
      var kf := Collide(g.level, Element.Fire, RespawnWorldPosForFire(g.level), f, g.fireboyAtExit);
      var kw := Collide(g.level, Element.Water, RespawnWorldPosForWater(g.level), w, g.watergirlAtExit);
      CollideOutcome(g.level, Element.Fire, RespawnWorldPosForFire(g.level), f, g.fireboyAtExit);
      CollideOutcome(g.level, Element.Water, RespawnWorldPosForWater(g.level), w, g.watergirlAtExit);
      GameState(g.level, kf.body, kw.body, kf.atExit, kw.atExit, kf.atExit && kw.atExit)
  }

  /**
   * When neither collision pass pushes its character, the frame is won
   * exactly when each character, after integration, has no lethal cell in
   * its span and either already had its exit flag or overlaps its own exit.
   */
  lemma UpdateWinsExactly(g: GameState, dt: real)
    requires g.level.Valid() && !g.won
    requires NothingPushes(g.level, Element.Fire, Integrate(g.fireboy, dt, WorldBounds(g.level)))
    requires NothingPushes(g.level, Element.Water, Integrate(g.watergirl, dt, WorldBounds(g.level)))
    ensures Update(g, dt).won <==>
              ReachesExit(g.level, Element.Fire, Integrate(g.fireboy, dt, WorldBounds(g.level)), g.fireboyAtExit) &&
              ReachesExit(g.level, Element.Water, Integrate(g.watergirl, dt, WorldBounds(g.level)), g.watergirlAtExit)
  {
    var world := WorldBounds(g.level);
    CollideReachesExit(g.level, Element.Fire, RespawnWorldPosForFire(g.level), Integrate(g.fireboy, dt, world), g.fireboyAtExit);
    CollideReachesExit(g.level, Element.Water, RespawnWorldPosForWater(g.level), Integrate(g.watergirl, dt, world), g.watergirlAtExit);
  }

  /**
   * The game can be won: with both characters covering their own exit
   * cells and nothing lethal in their spans, a frame of no elapsed time
   * sets both flags and wins.
   */
  lemma WinIsReachable(g: GameState, fc: int, fr: int, wc: int, wr: int)
    requires g.level.Valid() && !g.won
    requires 0 <= fc < g.level.width && 0 <= fr < g.level.height && TypeAtGrid(g.level, fc, fr) == ExitFire
    requires 0 <= wc < g.level.width && 0 <= wr < g.level.height && TypeAtGrid(g.level, wc, wr) == ExitWater
    requires g.fireboy.position == Vec2((fc * TileSize) as real, (fr * TileSize) as real)
    requires g.watergirl.position == Vec2((wc * TileSize) as real, (wr * TileSize) as real)
    requires forall r, c :: InSpan(ScanSpan(g.level, Box(g.fireboy.position)), c, r) ==>
                              !LethalFor(TypeAtGrid(g.level, c, r), Element.Fire)
    requires forall r, c :: InSpan(ScanSpan(g.level, Box(g.watergirl.position)), c, r) ==>
                              !LethalFor(TypeAtGrid(g.level, c, r), Element.Water)
    ensures Update(g, 0.0).won && Update(g, 0.0).fireboyAtExit && Update(g, 0.0).watergirlAtExit
  {
    StandingInOwnExit(g.level, Element.Fire, fc, fr, g.fireboy);
    StandingInOwnExit(g.level, Element.Water, wc, wr, g.watergirl);
    UpdateWinsExactly(g, 0.0);
  }

  /** One pass of the main loop: input, then update, with the same elapsed time. */
  function Frame(g: GameState, t: Tick): (g': GameState)
    requires g.level.Valid()
    ensures g'.level == g.level
    ensures Inv(g) ==> Inv(g')
  {
    Update(ProcessInput(g, t.dt, t.keys), t.dt)
  }

  /** Game::run over a finite sequence of frames. */
  function Run(g: GameState, ticks: seq<Tick>): (g': GameState)
    requires g.level.Valid()
    decreases |ticks|
  {
    if |ticks| == 0 then g else Run(Frame(g, ticks[0]), ticks[1..])
  }

  /** The frame invariant holds through any session, and the level never changes. */
  lemma {:induction false} RunKeepsInvariant(g: GameState, ticks: seq<Tick>)
    requires Inv(g)
    ensures Inv(Run(g, ticks)) && Run(g, ticks).level == g.level
    decreases |ticks|
  {
    if |ticks| > 0 {
      RunKeepsInvariant(Frame(g, ticks[0]), ticks[1..]);
    }
  }

  /** A won game is over: no later frame changes anything. */
  lemma {:induction false} WonIsFinal(g: GameState, ticks: seq<Tick>)
    requires g.level.Valid() && g.won
    ensures Run(g, ticks) == g
    decreases |ticks|
  {
    if |ticks| > 0 {
      assert Frame(g, ticks[0]) == g;
      WonIsFinal(g, ticks[1..]);
    }
  }

  /** Lives never go up, and each frame takes at most one from each character. */
  lemma {:induction false} LivesOnlyDecrease(g: GameState, ticks: seq<Tick>)
    requires g.level.Valid()
    ensures Run(g, ticks).fireboy.lives <= g.fireboy.lives <= Run(g, ticks).fireboy.lives + |ticks|
    ensures Run(g, ticks).watergirl.lives <= g.watergirl.lives <= Run(g, ticks).watergirl.lives + |ticks|
    decreases |ticks|
  {
    if |ticks| > 0 {
      var g1 := Frame(g, ticks[0]);
      LivesOnlyDecrease(g1, ticks[1..]);
    }
  }

  /** The exit flags can only be lost together with a respawn at the character's own respawn point. */
  lemma ExitLostOnlyByRespawn(g: GameState, t: Tick)
    requires g.level.Valid()
    ensures var g' := Frame(g, t);
            g.fireboyAtExit && !g'.fireboyAtExit ==> g'.fireboy.position == RespawnWorldPosForFire(g.level)
    ensures var g' := Frame(g, t);
            g.watergirlAtExit && !g'.watergirlAtExit ==> g'.watergirl.position == RespawnWorldPosForWater(g.level)
  {
  }

  /**
   * The start of a game: the map generated from the platform draws, and
   * both characters at rest and airborne at their respawn points with
   * three lives each.
   */
  function NewGame(w: int, h: int, draws: seq<int>): (g: GameState)
    requires 3 <= w && 3 <= h && DrawsFit(draws, w)
    ensures Inv(g) && !g.won && !g.fireboyAtExit && !g.watergirlAtExit
    ensures g.level == MapState(w, h, Generate(w, h, draws))
    ensures g.fireboy == Spawned(RespawnWorldPosForFire(g.level), DefaultLives)
    ensures g.watergirl == Spawned(RespawnWorldPosForWater(g.level), DefaultLives)
  {
    var m := MapState(w, h, Generate(w, h, draws));
    GameState(m,
              Spawned(Vec2(TileSide * 1.0, TileSide * (h as real - 2.0)), DefaultLives),
              Spawned(Vec2(TileSide * 5.0, TileSide * (h as real - 2.0)), DefaultLives),
              false, false, false)
  }
}

=== FILE: Tiles.dfy ===
/**
 * Grid cells: the six tile types, their names, and the tile value that the
 * grid stores (its type and its own column and row).
 */
module Tiles {
  import opened Options

  /** The closed set of cell kinds. */
  datatype TileType = Empty | Solid | Fire | Water | ExitFire | ExitWater

  /** Side of a square tile in world units (Tile::getSize()). */
  const TileSize: int := 48

  /** The same side as a world-space length. */
  const TileSide: real := 48.0

  /**
   * One grid cell. The type has no setter, so a tile never changes after it
   * is built; the grid replaces whole tiles instead.
   */
  datatype Tile = Tile(tileType: TileType, col: int, row: int)

  /** A default-constructed tile: Empty at column 0, row 0. */
  const DefaultTile: Tile := Tile(Empty, 0, 0)

  /** A tile is drawn exactly when it is not Empty. */
  predicate Drawn(t: Tile) {
    t.tileType != Empty
  }

  /** The enumerator name of a tile type. */
  function ToString(t: TileType): (s: string)
    ensures NamedType(s) == Some(t)
  {
    match t
    case Empty => "Empty"
    case Solid => "Solid"
    case Fire => "Fire"
    case Water => "Water"
    case ExitFire => "ExitFire"
    case ExitWater => "ExitWater"
  }

  /** Reads an enumerator name back; the reference inverse of ToString. */
  function NamedType(s: string): Option<TileType> {
    if s == "Empty" then Some(Empty)
    else if s == "Solid" then Some(Solid)
    else if s == "Fire" then Some(Fire)
    else if s == "Water" then Some(Water)
    else if s == "ExitFire" then Some(ExitFire)
    else if s == "ExitWater" then Some(ExitWater)
    else None
  }

  /** Different tile types have different names. */
  lemma ToStringInjective(a: TileType, b: TileType)
    ensures ToString(a) == ToString(b) ==> a == b
  {
    assert NamedType(ToString(a)) == Some(a);
    assert NamedType(ToString(b)) == Some(b);
  }

  /** Streaming a tile writes the name of its type and nothing else. */
  function Write(t: Tile): (s: string)
    ensures NamedType(s) == Some(t.tileType)
  {
    ToString(t.tileType)
  }
}
